=== FILE: README.md ===
# INIFile in Dafny

A model of `Parsers.INIFile` (`Source/INIFile/INIFile.cs`), a C# reader and
writer for INI configuration files. An INI file is made of `[section]` header
lines, `key=value` lines and `;` comments. The class offers two ways to use
such a file:

- Static operations work on the file's lines directly:
  - `ReadValue` returns the value of a key in a section.
  - `WriteValue` rewrites one key line in place.
  - `ReadAllSections` lists the header names.
  - `ReadAllKeys` lists the keys of a section.
  Each operation makes one pass, remembering the section of the last header.
- An `INIFile` object is loaded from a file. `buildStructures` turns the lines
  into a map from section names to key/value maps. The instance queries read
  that map: `ContainsSection`, `ContainsSectionKey`, `ReadValue`,
  `ReadValueOrDefault`, `ReadAllKeys` and `ReadAllKeyValuePairs`. There is
  also the `Sections` property and `IsNullOrEmpty`.

Modules:

- `Results`: `Option`, `Result` and the exceptions the code throws, as an
  `Error` value. `NotLoaded` stands for `FileNotSuppliedException`.
  `SectionAlreadyAdded` stands for the `ArgumentException` of
  `Dictionary.Add`.
- `Text`: the .NET string operations the code relies on. These are `Trim`,
  `TrimStart`, `TrimStart(char)`, `TrimEnd(char)`, `IndexOf`, a split at the
  first separator, `Remove(IndexOf(c))` and `Replace`. The white-space set is
  the one `Char.IsWhiteSpace` uses.
- `Lines`: how one line is classified. A line is blank, a comment, a header, a
  key line, or other. The static operations classify one way
  (`ClassifyStatic`) and the build another (`ClassifyBuild`). The module also
  holds the normalisation of a section argument.
- `Builder`: `buildStructures` as a fold over the classified lines
  (`Build`), and a corrected fold that keeps the first occurrence of every
  section (`BuildFirstWins`). It also holds `Expected`, a reference definition
  of the documented result: one section per header name, where the first
  occurrence wins, and within a section the first binding of a key wins.
- `BuilderFacts`: the theorems that relate the two folds to `Expected`.
- `BuildFindings`: small files on which the build as written departs from
  `Expected`.
- `Document`: the `INIFile` object and its instance queries.
- `FileOps`: the static operations on a sequence of lines. `Owner` and `Hit`
  are a reference definition of "the key line for `key` in section
  `section`".
- `FileFindings`: small files on which the static operations behave in ways
  worth knowing.

A `null` argument is `None`. An exception is an `Err`.

The model follows the code where it differs from the class's documentation
comments:

- The section map of a loaded object does not always keep the first
  occurrence of a repeated section, although line 281 promises that only the
  first one is taken (see Findings).
- `ContainsSectionKey` throws `KeyNotFoundException` for a bracketed argument
  such as `[A]`, although line 446 promises `true` or `false`.

Details of the code the model keeps:

- `ReadValueOrDefault` throws `FileNotSuppliedException` on an object that was
  never loaded, because the check comes before its `try`. This matches its
  documentation (line 482).
- `TrimStart('[')` and `TrimEnd(']')` remove every leading `[` and every
  trailing `]`, not just one.
- The static operations only trim the start of a line. They cut a header name
  at its first `]`, while the build strips every trailing `]`.

## Model

| member | source | states |
|---|---|---|
| Text.Trim | Source/INIFile/INIFile.cs:89-91 | the result has no white space at either end, is no longer than the input, and a string already trimmed is returned unchanged |
| Text.TrimIdempotent | Source/INIFile/INIFile.cs:65-66 | trimming twice is trimming once, so a trimmed key or section argument is its own normal form |
| Text.TrimPadded | Source/INIFile/INIFile.cs:89-91 | white space on both sides of a string without outer white space is removed and nothing else is |
| Text.Replace | Source/INIFile/INIFile.cs:155 | a line in which the old value does not occur is returned unchanged |
| Text.ReplaceSkipsPrefix | Source/INIFile/INIFile.cs:155 | when the old value does not start anywhere inside a prefix, replacing leaves that prefix as it was |
| Text.ReplaceAtHead | Source/INIFile/INIFile.cs:155 | an occurrence at the start is replaced and the scan resumes after it, so occurrences are replaced left to right without overlap |
| Text.ReplaceWhole | Source/INIFile/INIFile.cs:155 | a string that is exactly the old value becomes exactly the new one |
| Lines.ParseKeyValue | Source/INIFile/INIFile.cs:87-91 | a line is a key line exactly when it has an `=`; the key holds no `=`, the key and value are trimmed and the value has no `;`; which key and value are read is stated by Lines.ParseAtSeparator |
| Lines.ParseAtSeparator | Source/INIFile/INIFile.cs:87-91 | a line with its first `=` after `before` reads as the key `before` trimmed and the value after the `=` cut at its first `;` and trimmed |
| Lines.StripBrackets | Source/INIFile/INIFile.cs:550 | the result is the input with only some leading `[` and some trailing `]` taken off, and no `[` is left at its start or `]` at its end |
| Lines.NormalizeSection | Source/INIFile/INIFile.cs:66 | a section argument is its trimmed text with only leading `[` and trailing `]` taken off, none left at either end; a trimmed name without brackets denotes itself |
| Lines.StaticHeaderName | Source/INIFile/INIFile.cs:80-83 | the name is the text after the leading `[`s, cut just before the first `]`, or the whole remainder when there is no `]`; so it never holds a `]` and never starts with `[` |
| Lines.ClassifyStatic | Source/INIFile/INIFile.cs:75-91 | a line is blank exactly when it is all white space; past its leading white space, a line starting with `;` is a comment, one starting with `[` is a header named by the static extraction, and any other is read as a key line; a header name holds no `]` and does not start with `[`; a key line has an `=`, its key holds none, key and value are trimmed and the value has no `;`; a line of no kind has no `=` |
| Lines.ClassifyBuild | Source/INIFile/INIFile.cs:544-566 | as for the static operations, except that the line is trimmed at both ends and a header is named by stripping its leading `[` and trailing `]`, so its name neither starts with `[` nor ends with `]` and may hold a `]` inside |
| Lines.PaddedLine | Source/INIFile/INIFile.cs:75-78 | white space before the first other character never changes a line's kind under either classifier: `;` makes it a comment, `[` a header, anything else a candidate key line |
| Lines.FormatPairRoundTrip | Source/INIFile/INIFile.cs:87-91 | both classifications read `key=value` back as exactly that key and value |
| Lines.FormatHeaderRoundTrip | Source/INIFile/INIFile.cs:78-83 | both classifications read `[name]` back as `name`, and normalising `[name]` as an argument gives `name` |
| Lines.ParsePaddedPair | Source/INIFile/INIFile.cs:87-91 | white space around the `=` and the value and a trailing `;` comment do not change the key and value read |
| Lines.SpacedKeyLine | Source/INIFile/INIFile.cs:75-91 | a trimmed line of that padded shape is the key line for the key and value whatever padding it carries |
| Lines.SameShape | Source/INIFile/INIFile.cs:545-548 | the static operations and the build agree on which lines are blank, comments and headers |
| Lines.TextAfterHeader | Source/INIFile/INIFile.cs:550 | for `[name]x`, the static operations read `name` but the build reads `name]x` |
| Lines.UnclosedHeader | Source/INIFile/INIFile.cs:81-82 | a header without `]` keeps the rest of the line as its name in both classifications |
| Builder.TakePair | Source/INIFile/INIFile.cs:563-567 | an empty key or one already present leaves the section as it was; any other key is added with its value |
| Builder.Step | Source/INIFile/INIFile.cs:548-559 | keys are only ever collected once a header has named the current section |
| Builder.Scan | Source/INIFile/INIFile.cs:543-568 | a committed section is never replaced, and every committed name is a header name of the lines |
| Builder.Finish | Source/INIFile/INIFile.cs:570 | the final `Add` fails exactly when the last section is not skipped and its name is already present |
| Builder.Build | Source/INIFile/INIFile.cs:534-571 | every section of the built map is named by a header of the file |
| Builder.StepFirstWins | Source/INIFile/INIFile.cs:548-558 | the corrected step never collects keys for a name already committed |
| Builder.ExpectedDefined | Source/INIFile/INIFile.cs:280-282 | every section of the documented result is named by a header line, and every key in it is non-empty and defined by some key line |
| Builder.BuildFirstWins | Source/INIFile/INIFile.cs:534-571 | every section of the corrected build is named by a header of the file |
| BuilderFacts.BuildFirstWinsDomain | Source/INIFile/INIFile.cs:280-282 | the corrected build has a section for exactly the header names, each holding only non-empty keys that some key line defines |
| Builder.BodyPairs | Source/INIFile/INIFile.cs:563-567 | a section body never binds the empty key, and binds only keys that some line of the body defines |
| BuilderFacts.ExpectedDomain | Source/INIFile/INIFile.cs:280-281 | the documented result has a section for exactly the header names of the file |
| BuilderFacts.BodyPairsFirstWins | Source/INIFile/INIFile.cs:566-567 | within a section, the first line that defines a key gives its value |
| BuilderFacts.ExpectedSectionBody | Source/INIFile/INIFile.cs:280-281 | the first header with a name gives that section the pairs of the lines up to the next header |
| BuilderFacts.BuildFirstWinsIsExpected | Source/INIFile/INIFile.cs:534-571 | on every file, the corrected build gives the documented first-wins result |
| BuilderFacts.ScanAgreesWhenFresh | Source/INIFile/INIFile.cs:543-570 | until a header repeats a name, the build as written steps exactly as the corrected one does |
| BuilderFacts.BuildDistinct | Source/INIFile/INIFile.cs:534-571 | when no two headers share a name, the build as written succeeds, gives the documented result and has a section for exactly the header names |
| BuilderFacts.BuildSectionBody | Source/INIFile/INIFile.cs:548-567 | with distinct header names, the section of the header at line `i` holds the first-wins pairs of the lines up to the next header |
| BuilderFacts.BuildWithoutHeaders | Source/INIFile/INIFile.cs:537-559 | a file without headers loads as an empty but present section map: key lines before any header are dropped |
| BuilderFacts.BuildIgnoresLeadIn | Source/INIFile/INIFile.cs:537-560 | lines before the first header change nothing: the file loads exactly as it would without them |
| BuilderFacts.BuildKeysDefined | Source/INIFile/INIFile.cs:560-567 | on every file, repeated headers included, the build as written binds only non-empty keys, each the key of some key line |
| BuildFindings.RepeatedLastSection | Source/INIFile/INIFile.cs:570 | with `[a] k=v1 [a] k=v2`, the build as written throws, while the corrected build and the documented result both give `a` the pair `k=v1` |
| BuildFindings.SectionAfterRepeatLost | Source/INIFile/INIFile.cs:553-557 | with `[a] [a] [b] k=v`, the build as written drops `b`, while the corrected build and the documented result keep it with `k=v` |
| BuildFindings.KeysOfRepeatMisfiled | Source/INIFile/INIFile.cs:553-557 | with `[a] [b] [a] k=v [c] [d]`, the build as written files `k=v` under `c`, while the documented result leaves every section empty |
| Document.Open | Source/INIFile/INIFile.cs:307-313 | a file opens exactly when the build succeeds; the object is named by the path and holds the built map, and otherwise the build's exception is thrown |
| Document.LoadFile | Source/INIFile/INIFile.cs:345-351 | loading always renames the object and leaves it loaded; it throws exactly when the build throws, and otherwise holds the built map |
| Document.SectionNames | Source/INIFile/INIFile.cs:267-272 | the `Sections` property lists exactly the names in the map, and throws `NullReferenceException` on an object never loaded |
| Document.SectionArgument | Source/INIFile/INIFile.cs:436-438 | a section argument names a section exactly when it is not `null` and normalises to a non-empty name, which it then denotes |
| Document.ContainsSection | Source/INIFile/INIFile.cs:433-440 | it throws on an object never loaded; otherwise it answers whether the argument names a section present in the map |
| Document.ContainsSectionKey | Source/INIFile/INIFile.cs:443-454 | it throws on an object never loaded; on a loaded one it throws nothing but `KeyNotFoundException`, exactly when the section is present under its normalised name but not under the raw argument; it is true exactly when the raw argument is a section holding the key, and false in every other case (a `null` key or section, or a section not present) |
| Document.Selected | Source/INIFile/INIFile.cs:467-470 | a query selects a section exactly when its argument names one present in the map, and then selects that section |
| Document.ReadValue | Source/INIFile/INIFile.cs:463-474 | it throws on an object never loaded; a value is returned exactly when the section is selected and holds the key as given, and it is the stored value |
| Document.ReadValueOrDefault | Source/INIFile/INIFile.cs:483-490 | it still throws on an object never loaded; otherwise it returns what `ReadValue` finds, or the default when that finds nothing |
| Document.ReadAllKeys | Source/INIFile/INIFile.cs:498-509 | it throws on an object never loaded; otherwise it returns exactly the keys of the selected section, or none |
| Document.ReadAllKeyValuePairs | Source/INIFile/INIFile.cs:517-528 | it throws on an object never loaded; otherwise it returns the pairs of the selected section, or none |
| Document.IsNullOrEmpty | Source/INIFile/INIFile.cs:46-49 | an object is reported exactly when it is `null` or its `Sections` property throws, which for a present object is exactly when `ReadValue` throws `FileNotSuppliedException` |
| Document.NotLoadedEverywhere | Source/INIFile/INIFile.cs:46-49 | every query throws `FileNotSuppliedException` exactly on the objects that `IsNullOrEmpty` reports |
| Document.QueriesAgree | Source/INIFile/INIFile.cs:463-528 | a value is read exactly when `ContainsSection` holds and `ReadAllKeys` lists the key, and it is the value `ReadAllKeyValuePairs` pairs with the key; both list the same keys |
| Document.OpenedEmptyKeyMissing | Source/INIFile/INIFile.cs:563-564 | reading the empty key from an opened file never finds a value, whatever headers repeat |
| Document.ContainsSectionKeyPlain | Source/INIFile/INIFile.cs:448-454 | for a section argument already in normal form, `ContainsSectionKey` does not throw and agrees with `ReadValue` |
| Document.ContainsSectionKeyBracketed | Source/INIFile/INIFile.cs:448-454 | asking about a present section `A` as `[A]` passes the presence check and then throws `KeyNotFoundException` |
| Document.OpenThenRead | Source/INIFile/INIFile.cs:463-474 | after opening a file whose header names are distinct, reading a key of a header's section gives the first value that header's body binds to it |
| Document.FailedLoadStaysLoaded | Source/INIFile/INIFile.cs:345-351 | a load whose build throws leaves an object that counts as loaded and already holds the repeated final section |
| FileOps.FirstHit | Source/INIFile/INIFile.cs:72-96 | the line the scan stops at is a key line for the key |
| FileOps.FirstHitSpec | Source/INIFile/INIFile.cs:72-96 | the scan stops at a key line for the key inside the section and at no earlier one, and it finds none only when no such line exists |
| FileOps.ReadValue | Source/INIFile/INIFile.cs:60-103 | it throws `ArgumentNullException` exactly when the section or the key is `null` |
| FileOps.ReadValueFindsFirst | Source/INIFile/INIFile.cs:72-96 | the value read is that of the first key line for the trimmed key inside any occurrence of the normalised section |
| FileOps.ReadValueMissing | Source/INIFile/INIFile.cs:102 | without such a key line, the default is returned |
| FileOps.WriteValue | Source/INIFile/INIFile.cs:114-166 | a `null` section or key throws `ArgumentNullException`; any other failure is `FileHandlingException`; the file keeps its length, and is unchanged when nothing is updated |
| FileOps.WriteFollowsRead | Source/INIFile/INIFile.cs:133-165 | the write fails exactly when `ReadValue` finds an empty value, updates exactly when it finds a value, and leaves the file as it was when it finds none |
| FileOps.WriteValueAt | Source/INIFile/INIFile.cs:152-157 | only the first key line for the key in the section is rewritten, with every occurrence of its prior value replaced |
| FileOps.WriteValueInPlace | Source/INIFile/INIFile.cs:152-156 | the corrected write fails only on a `null` section or key, keeps the file's length, and leaves it unchanged when nothing is updated |
| FileOps.InPlaceReadsBack | Source/INIFile/INIFile.cs:147-155 | swapping only the value text of a key line keeps its key and gives it the new value |
| FileOps.InPlaceThenRead | Source/INIFile/INIFile.cs:133-157 | after a corrected write of a value that a key line can carry, reading the key gives that value |
| FileOps.WriteThenRead | Source/INIFile/INIFile.cs:155 | on a line `key=prior` where the prior value does not occur in the key, the write as written equals the corrected one and reads back the new value |
| FileOps.ReplaceOnlyValue | Source/INIFile/INIFile.cs:155 | replacing a prior value that occurs only after the `=` changes the value alone, just as the corrected write does |
| FileOps.ReadAllSections | Source/INIFile/INIFile.cs:173-201 | every header name is listed in file order, repeats included |
| FileOps.ReadAllKeys | Source/INIFile/INIFile.cs:209-251 | a `null` section throws `NullReferenceException`; otherwise no more keys are listed than the file has lines |
| FileOps.ReadAllKeysFirstSection | Source/INIFile/INIFile.cs:226-245 | the keys listed are those of the key lines of the first section with the name, up to the next header |
| FileOps.ReadAllKeysNoSection | Source/INIFile/INIFile.cs:209-251 | without a header with the name, no keys are listed |
| FileOps.CollectKeys | Source/INIFile/INIFile.cs:220-245 | no more keys are listed than there are lines, and every key listed is the key of some key line |
| FileOps.CollectBody | Source/INIFile/INIFile.cs:240-244 | inside the section, the key of every key line is collected until the next header |
| FileFindings.ValueInKeyRewritesKey | Source/INIFile/INIFile.cs:155 | writing `v` to a line `k=k` gives `v=v`, after which the key reads as missing, while the corrected write gives `k=v` |
| FileFindings.EmptyValueNotWritable | Source/INIFile/INIFile.cs:155 | a key line with an empty value cannot be written, while the corrected write fills the value in |
| FileFindings.RepeatedSectionReadsDiffer | Source/INIFile/INIFile.cs:86 | in `[a] [b] [a] k=v`, `ReadValue` finds `k` in `a`, but `ReadAllKeys` lists no keys for `a` |
| FileFindings.RepeatedSectionListedTwice | Source/INIFile/INIFile.cs:192 | `ReadAllSections` lists a repeated section once per header |

## Left out

- Reading and writing the file is left out. `StreamReader`, `File.ReadAllLines`, the temporary file in the working directory, and the final `File.Copy` or `File.Delete` are not modelled. The operations take the lines and return the lines to write. Any I/O failure is the `FileHandling` error, and the temporary file left behind by a failed copy is not modelled.
- Line terminators are not modelled: a file is a sequence of lines.
- The modification time and the equality operations are left out (`Equals`, `==`, `!=`, `GetHashCode`, `ToString`, lines 354-398). They compare clocks and `Dictionary.Except` results.
- The two indexers (lines 407-424) are left out. They only call the instance `ReadValue` and `ReadAllKeys`.
- The exception classes (lines 10-30) are left out. Their fields carry no behaviour; the model keeps only the kind of each error.
- `StartsWith(";")` and `StartsWith("[")` are culture-sensitive in .NET. The model compares the first character.
- Document.ReadAllKeys: returns a set, because the order of `Dictionary.Keys` is not modelled.
- Document.ReadAllKeyValuePairs: returns a map, for the same reason.
- FileOps.ReadAllKeys: its own contract only bounds the result; what it lists is stated by FileOps.ReadAllKeysFirstSection and FileOps.ReadAllKeysNoSection.
- FileOps.WriteValueInPlace: drops the white space between the `=` and the old value, and between the value and a trailing comment.
- Document.OpenThenRead: stated only for files whose header names are distinct. On other files the build as written departs from the documented result (see Findings).
- The instance queries use the build as written, because that is what a loaded object holds. The corrected build is proved equal to the documented result on every file. The build as written is proved equal to it when header names are distinct.

## Findings

| source | as written | input that shows it | evidently intended | confidence | as-written member | corrected member |
|---|---|---|---|---|---|---|
| Source/INIFile/INIFile.cs:570 | after the loop, the last section is added with `Dictionary.Add` unless skipped; the skip flag is computed from the previous name, so a repeated last section is added a second time and throws | `[a]`, `k=v1`, `[a]`, `k=v2` | the first `[a]` is kept with `k=v1` and the load succeeds, as the documentation says at line 281; the same comments contradict themselves, since lines 305 and 343 announce `SectionExistsException` for a repeated section, which the code never throws | high, not executed | BuildFindings.RepeatedLastSection | BuilderFacts.BuildFirstWinsIsExpected |
| Source/INIFile/INIFile.cs:553-557 | at a header, the skip flag for the new section is whether the PREVIOUS section's name is already present; when it is, the new section's keys are dropped or collected into the previous section's map | `[a]`, `[a]`, `[b]`, `k=v` loses `b`; `[a]`, `[b]`, `[a]`, `k=v`, `[c]`, `[d]` files `k=v` under `c` | every section but a repeat is kept with its own keys | high, not executed | BuildFindings.SectionAfterRepeatLost | BuilderFacts.BuildFirstWinsIsExpected |
| Source/INIFile/INIFile.cs:155 | the new value replaces every occurrence of the old value text in the raw line, key and comment included | `[s]`, `port=port`, writing `80`, gives `80=80`; `port` then reads as missing | only the value of the key line changes | high, not executed | FileFindings.ValueInKeyRewritesKey | FileOps.InPlaceThenRead |
| Source/INIFile/INIFile.cs:155 | `String.Replace` throws on an empty old value, which surfaces as `FileHandlingException` | `[s]`, `k=`, writing `v` | the empty value is replaced, giving `k=v` | high, not executed | FileFindings.EmptyValueNotWritable | FileOps.InPlaceThenRead |

=== FILE: build.dfy ===
/** `buildStructures`: the single pass that turns a file's lines into the
    section map of a loaded `INIFile`, written as a fold over the lines. The
    fold state holds the same four variables as the source loop. Each line is
    classified first (`Lines.ClassifyBuild`); the fold works on the kinds.

    Next to the scan as written, the module holds a corrected scan that keeps
    the first occurrence of every section, and `Expected`, a reference
    definition of the documented result. */
module Builder {
  import opened Results
  import opened Text
  import opened Lines

  type Section = map<string, string>
  type Sections = map<string, Section>

  /** `skipSectionKeys`, `currentSection`, `sections` and `sectionKeys`. */
  datatype BuildState = BuildState(skip: bool, current: Option<string>, sections: Sections, keys: Section)

  /** Before the first line: keys are skipped until a header appears. */
  const Start := BuildState(true, None, map[], map[])

  /** Keys are only collected once a header has named the section. */
  predicate Valid(st: BuildState) {
    !st.skip ==> st.current.Some?
  }

  /** A key line inside a collected section: empty keys and keys already
      present are dropped, so the first occurrence of a key wins. */
  function TakePair(keys: Section, key: string, value: string): (r: Section)
    ensures key != "" && key !in keys ==> r == keys[key := value]
    ensures key == "" || key in keys ==> r == keys
  {
    if key == "" || key in keys then keys else keys[key := value]
  }

  // ---------------------------------------------------------------------------
  // The scan as written

  /** Every line classified as the build classifies it. */
  function Kinds(lines: seq<string>): (r: seq<LineKind>)
    ensures |r| == |lines|
  {
    if |lines| == 0 then [] else [ClassifyBuild(lines[0])] + Kinds(lines[1..])
  }

  /** One iteration of the loop. At a header, the flag for the new section is
      computed from whether the PREVIOUS section's name is already in the
      map; the previous section is committed when it is not. */
  function Step(st: BuildState, line: LineKind): (r: BuildState)
    requires Valid(st)
    ensures Valid(r)
  {
    match line
    case Header(name) =>
      (match st.current
       case None => BuildState(false, Some(name), st.sections, map[])
       case Some(previous) =>
         if previous in st.sections then BuildState(true, Some(name), st.sections, st.keys)
         else BuildState(false, Some(name), st.sections[previous := st.keys], map[]))
    case Pair(key, value) => if st.skip then st else st.(keys := TakePair(st.keys, key, value))
    case _ => st
  }

  function Scan(st: BuildState, lines: seq<LineKind>): (r: BuildState)
    requires Valid(st)
    ensures Valid(r)
    ensures forall n :: n in st.sections ==> n in r.sections && r.sections[n] == st.sections[n]
    ensures forall n :: n in r.sections ==> n in st.sections || Some(n) == st.current || n in HeaderNames(lines)
    ensures r.current.Some? ==> r.current == st.current || r.current.value in HeaderNames(lines)
    decreases |lines|
  {
    if |lines| == 0 then st
    else
      var r := Scan(Step(st, lines[0]), lines[1..]);
      assert HeaderNames(lines) == (if lines[0].Header? then [lines[0].name] else []) + HeaderNames(lines[1..]);
      r
  }

  /** After the loop: the last section is added unless skipped, and
      `Dictionary.Add` throws when its name is already present. */
  function Finish(st: BuildState): (r: Result<Sections>)
    requires Valid(st)
    ensures r.Err? <==> !st.skip && st.current.value in st.sections
    ensures r.Ok? ==> st.sections.Keys <= r.value.Keys
  {
    if st.skip then Ok(st.sections)
    else if st.current.value in st.sections then Err(SectionAlreadyAdded(st.current.value))
    else Ok(st.sections[st.current.value := st.keys])
  }

  /** `buildStructures(fileLines)` as written. */
  function Build(lines: seq<string>): (r: Result<Sections>)
    ensures r.Ok? ==> forall n :: n in r.value ==> n in HeaderNames(Kinds(lines))
  {
    Finish(Scan(Start, Kinds(lines)))
  }

  // ---------------------------------------------------------------------------
  // The corrected scan

  /** The previous section was committed, or it was a repeat and dropped. */
  predicate ValidFirstWins(st: BuildState) {
    !st.skip ==> st.current.Some? && st.current.value !in st.sections
  }

  /** A header first commits the section in progress unless it is being
      skipped, then skips the new section exactly when its own name is
      already present. */
  function StepFirstWins(st: BuildState, line: LineKind): (r: BuildState)
    requires ValidFirstWins(st)
    ensures ValidFirstWins(r)
  {
    match line
    case Header(name) =>
      var committed := if st.skip then st.sections else st.sections[st.current.value := st.keys];
      BuildState(name in committed, Some(name), committed, map[])
    case Pair(key, value) => if st.skip then st else st.(keys := TakePair(st.keys, key, value))
    case _ => st
  }

  function ScanFirstWins(st: BuildState, lines: seq<LineKind>): (r: BuildState)
    requires ValidFirstWins(st)
    ensures ValidFirstWins(r)
    ensures forall n :: n in st.sections ==> n in r.sections && r.sections[n] == st.sections[n]
    ensures forall n :: n in r.sections ==> n in st.sections || Some(n) == st.current || n in HeaderNames(lines)
    ensures r.current.Some? ==> r.current == st.current || r.current.value in HeaderNames(lines)
    decreases |lines|
  {
    if |lines| == 0 then st
    else
      var r := ScanFirstWins(StepFirstWins(st, lines[0]), lines[1..]);
      assert HeaderNames(lines) == (if lines[0].Header? then [lines[0].name] else []) + HeaderNames(lines[1..]);
      r
  }

  function FinishFirstWins(st: BuildState): (r: Sections)
    requires ValidFirstWins(st)
    ensures st.sections.Keys <= r.Keys
    ensures forall n :: n in r ==> n in st.sections || Some(n) == st.current
  {
    if st.skip then st.sections else st.sections[st.current.value := st.keys]
  }

  /** The build the documentation describes: it never fails, and a repeated
      section's body is dropped. */
  function BuildFirstWins(lines: seq<string>): (r: Sections)
    ensures forall n :: n in r ==> n in HeaderNames(Kinds(lines))
  {
    FinishFirstWins(ScanFirstWins(Start, Kinds(lines)))
  }

  // ---------------------------------------------------------------------------
  // Reference definitions

  /** The header names of `lines`, in file order, repeats included. */
  function HeaderNames(lines: seq<LineKind>): seq<string>
    decreases |lines|
  {
    if |lines| == 0 then []
    else (if lines[0].Header? then [lines[0].name] else []) + HeaderNames(lines[1..])
  }

  /** The number of lines before the first header line. */
  function LeadLength(lines: seq<LineKind>): (n: nat)
    ensures n <= |lines|
    ensures forall i :: 0 <= i < n ==> !lines[i].Header?
    ensures n < |lines| ==> lines[n].Header?
    decreases |lines|
  {
    if |lines| == 0 || lines[0].Header? then 0 else 1 + LeadLength(lines[1..])
  }

  /** The lines of the section whose header is line `i`: those after it, up to
      the next header. */
  function SectionLines(lines: seq<LineKind>, i: nat): seq<LineKind>
    requires i < |lines|
  {
    var body := lines[i + 1..];
    body[..LeadLength(body)]
  }

  /** `line` is a key line for `key`. */
  predicate DefinesKey(line: LineKind, key: string) {
    line.Pair? && line.key == key
  }

  /** The pairs of a section body, each key bound by its first line: a line
      overrides whatever the lines after it bind. */
  function BodyPairs(body: seq<LineKind>): (r: Section)
    ensures "" !in r
    ensures forall k :: k in r ==> exists i :: 0 <= i < |body| && DefinesKey(body[i], k)
    decreases |body|
  {
    if |body| == 0 then map[]
    else
      var rest := BodyPairs(body[1..]);
      assert forall k, i :: 0 <= i < |body[1..]| && DefinesKey(body[1..][i], k) ==> DefinesKey(body[i + 1], k);
      match body[0]
      case Pair(key, value) => if key == "" then rest else rest[key := value]
      case _ => rest
  }

  /** Every header names a section holding the pairs of the lines up to the
      next header; for a repeated name the first occurrence is the one kept. */
  function Expected(lines: seq<LineKind>): Sections
    decreases |lines|
  {
    if |lines| == 0 then map[]
    else match lines[0]
      case Header(name) =>
        var n := LeadLength(lines[1..]);
        Expected(lines[1 + n..])[name := BodyPairs(lines[1..1 + n])]
      case _ => Expected(lines[1..])
  }

  /** Every section `Expected` builds is named by a header, and every key in
      it is non-empty and defined by some line. */
  lemma {:induction false} ExpectedDefined(lines: seq<LineKind>)
    ensures NamedByHeaders(lines, Expected(lines))
    ensures KeysDefined(lines, Expected(lines))
    decreases |lines|
  {
    if |lines| > 0 {
      match lines[0]
      case Header(name) =>
        var n := LeadLength(lines[1..]);
        var rest, pairs := Expected(lines[1 + n..]), BodyPairs(lines[1..1 + n]);
        ExpectedDefined(lines[1 + n..]);
        ShiftSections(lines, 1 + n, rest);
        HeaderSection(lines, n, name);
        UpdateSections(lines, rest, name, pairs);
      case _ =>
        ExpectedDefined(lines[1..]);
        ShiftSections(lines, 1, Expected(lines[1..]));
    }
  }

  /** Every section is named by some header line. */
  predicate NamedByHeaders(lines: seq<LineKind>, sections: Sections) {
    forall n :: n in sections ==> exists i :: 0 <= i < |lines| && lines[i] == Header(n)
  }

  /** Every key of every section is non-empty and defined by some key line. */
  predicate KeysDefined(lines: seq<LineKind>, sections: Sections) {
    forall n, k :: n in sections && k in sections[n] ==> k != "" && exists i :: 0 <= i < |lines| && DefinesKey(lines[i], k)
  }

  /** What the lines from `d` on name and define, the whole of `lines` does. */
  lemma ShiftSections(lines: seq<LineKind>, d: nat, sections: Sections)
    requires d <= |lines|
    requires NamedByHeaders(lines[d..], sections) && KeysDefined(lines[d..], sections)
    ensures NamedByHeaders(lines, sections) && KeysDefined(lines, sections)
  {
    var tail := lines[d..];
    forall n | n in sections ensures exists i :: 0 <= i < |lines| && lines[i] == Header(n) {
      var i :| 0 <= i < |tail| && tail[i] == Header(n);
      assert lines[d + i] == tail[i];
    }
    forall n, k | n in sections && k in sections[n] ensures exists i :: 0 <= i < |lines| && DefinesKey(lines[i], k) {
      var i :| 0 <= i < |tail| && DefinesKey(tail[i], k);
      assert lines[d + i] == tail[i];
    }
  }

  /** The section a header opens is named by that header, and its keys are
      defined by the lines of its body. */
  lemma HeaderSection(lines: seq<LineKind>, n: nat, name: string)
    requires 1 + n <= |lines| && lines[0] == Header(name)
    ensures NamedByHeaders(lines, map[name := BodyPairs(lines[1..1 + n])])
    ensures KeysDefined(lines, map[name := BodyPairs(lines[1..1 + n])])
  {
    var body := lines[1..1 + n];
    forall k | k in BodyPairs(body) ensures exists i :: 0 <= i < |lines| && DefinesKey(lines[i], k) {
      var i :| 0 <= i < |body| && DefinesKey(body[i], k);
      assert lines[1 + i] == body[i];
    }
  }

  lemma UpdateSections(lines: seq<LineKind>, rest: Sections, name: string, pairs: Section)
    requires NamedByHeaders(lines, rest) && KeysDefined(lines, rest)
    requires NamedByHeaders(lines, map[name := pairs]) && KeysDefined(lines, map[name := pairs])
    ensures NamedByHeaders(lines, rest[name := pairs]) && KeysDefined(lines, rest[name := pairs])
  {
    var updated := rest[name := pairs];
    forall m, k | m in updated && k in updated[m]
      ensures k != "" && exists i :: 0 <= i < |lines| && DefinesKey(lines[i], k)
    {
      if m == name {
        assert k in map[name := pairs][name];
      }
    }
  }

  /** No two headers carry the same name. */
  predicate Distinct(names: seq<string>) {
    forall i, j :: 0 <= i < j < |names| ==> names[i] != names[j]
  }
}

=== FILE: build_facts.dfy ===
/** What the document build computes, proved against the reference `Expected`:
    the corrected scan meets it on every input, the scan as written meets it
    whenever no section name repeats, and on repeated names the scan as
    written fails or misfiles a body. */
module BuilderFacts {
  import opened Results
  import opened Text
  import opened Lines
  import opened Builder

  // ---------------------------------------------------------------------------
  // Structure of the reference definitions

  lemma {:induction false} HeaderNamesAppend(a: seq<LineKind>, b: seq<LineKind>)
    ensures HeaderNames(a + b) == HeaderNames(a) + HeaderNames(b)
    decreases |a|
  {
    if |a| > 0 {
      assert (a + b)[0] == a[0];
      assert (a + b)[1..] == a[1..] + b;
      HeaderNamesAppend(a[1..], b);
    } else {
      assert a + b == b;
    }
  }

  lemma {:induction false} NoHeaderNoNames(lines: seq<LineKind>)
    requires forall i :: 0 <= i < |lines| ==> !lines[i].Header?
    ensures HeaderNames(lines) == []
    decreases |lines|
  {
    if |lines| > 0 {
      NoHeaderNoNames(lines[1..]);
    }
  }

  /** The lead-in before the first header contributes nothing to `Expected`. */
  lemma {:induction false} ExpectedSkipsLead(lines: seq<LineKind>)
    ensures Expected(lines) == Expected(lines[LeadLength(lines)..])
    decreases |lines|
  {
    if |lines| > 0 && !lines[0].Header? {
      ExpectedSkipsLead(lines[1..]);
      assert lines[1..][LeadLength(lines[1..])..] == lines[LeadLength(lines)..];
    } else {
      assert lines[0..] == lines;
    }
  }

  /** The sections of `Expected` are exactly the header names of the file. */
  lemma {:induction false} ExpectedDomain(lines: seq<LineKind>)
    ensures forall n :: n in Expected(lines) <==> n in HeaderNames(lines)
    decreases |lines|
  {
    if |lines| > 0 {
      var tail := lines[1..];
      if lines[0].Header? {
        var n := LeadLength(tail);
        assert tail == tail[..n] + tail[n..];
        HeaderNamesAppend(tail[..n], tail[n..]);
        NoHeaderNoNames(tail[..n]);
        assert tail[n..] == lines[1 + n..];
        ExpectedDomain(lines[1 + n..]);
      } else {
        ExpectedDomain(tail);
      }
    }
  }

  /** Within a body, the first line defining a non-empty key gives its value. */
  lemma {:induction false} BodyPairsFirstWins(body: seq<LineKind>, i: nat, key: string, value: string)
    requires i < |body| && body[i] == Pair(key, value) && key != ""
    requires forall j :: 0 <= j < i ==> !DefinesKey(body[j], key)
    ensures key in BodyPairs(body) && BodyPairs(body)[key] == value
    decreases i
  {
    if i > 0 {
      assert !DefinesKey(body[0], key);
      BodyPairsFirstWins(body[1..], i - 1, key, value);
    }
  }

  /** The section a header opens holds the pairs of the lines up to the next
      header, provided no earlier header carries the same name. */
  lemma {:induction false} ExpectedSectionBody(pre: seq<LineKind>, name: string, rest: seq<LineKind>)
    requires name !in HeaderNames(pre)
    ensures name in Expected(pre + [Header(name)] + rest)
    ensures Expected(pre + [Header(name)] + rest)[name] == BodyPairs(rest[..LeadLength(rest)])
    decreases |pre|
  {
    if |pre| == 0 {
      ExpectedBodyHere(pre, name, rest);
    } else if pre[0].Header? {
      var pre' := LeadSkipsOtherSection(pre, name, rest);
      ExpectedSectionBody(pre', name, rest);
      var other := ExpectedDropSection(pre, pre', name, rest);
    } else {
      assert HeaderNames(pre) == HeaderNames(pre[1..]);
      ExpectedSectionBody(pre[1..], name, rest);
      ExpectedDropLine(pre, name, rest);
    }
  }

  lemma ExpectedBodyHere(pre: seq<LineKind>, name: string, rest: seq<LineKind>)
    requires |pre| == 0
    ensures name in Expected(pre + [Header(name)] + rest)
    ensures Expected(pre + [Header(name)] + rest)[name] == BodyPairs(rest[..LeadLength(rest)])
  {
    var lines := [Header(name)] + rest;
    assert pre + [Header(name)] + rest == lines;
    var n := LeadLength(rest);
    assert lines[1..] == rest && lines[1..1 + n] == rest[..n];
    assert Expected(lines) == Expected(lines[1 + n..])[name := BodyPairs(rest[..n])] by {
      ExpectedAtHeader(lines);
    }
  }

  /** Dropping a leading section whose body ends before the `name` header
      adds one binding, for a different name. */
  lemma ExpectedDropSection(pre: seq<LineKind>, pre': seq<LineKind>, name: string, rest: seq<LineKind>)
      returns (body: Section)
    requires |pre| > 0 && pre[0].Header?
    requires LeadLength((pre + [Header(name)] + rest)[1..]) < |pre|
    requires pre' == pre[1 + LeadLength((pre + [Header(name)] + rest)[1..])..]
    ensures Expected(pre + [Header(name)] + rest) == Expected(pre' + [Header(name)] + rest)[pre[0].name := body]
  {
    var lines := pre + [Header(name)] + rest;
    var n := LeadLength(lines[1..]);
    ExpectedAtHeader(lines);
    body := BodyPairs(lines[1..1 + n]);
    assert lines[1 + n..] == pre' + [Header(name)] + rest;
  }

  lemma ExpectedDropLine(pre: seq<LineKind>, name: string, rest: seq<LineKind>)
    requires |pre| > 0 && !pre[0].Header?
    ensures Expected(pre + [Header(name)] + rest) == Expected(pre[1..] + [Header(name)] + rest)
  {
    var lines := pre + [Header(name)] + rest;
    assert lines[0] == pre[0];
    ExpectedPastLine(lines);
    assert lines[1..] == pre[1..] + [Header(name)] + rest;
  }

  /** `Expected` at any other line: the line contributes nothing. */
  lemma ExpectedPastLine(lines: seq<LineKind>)
    requires |lines| > 0 && !lines[0].Header?
    ensures Expected(lines) == Expected(lines[1..])
  {
  }

  /** `Expected` at a header line: the section's body runs to the next header. */
  lemma ExpectedAtHeader(lines: seq<LineKind>)
    requires |lines| > 0 && lines[0].Header?
    ensures var n := LeadLength(lines[1..]);
      Expected(lines) == Expected(lines[1 + n..])[lines[0].name := BodyPairs(lines[1..1 + n])]
  {
  }

  /** Past a header other than `name`, the body of that other header ends
      before the `name` header, and what follows still does not mention `name`. */
  lemma LeadSkipsOtherSection(pre: seq<LineKind>, name: string, rest: seq<LineKind>) returns (pre': seq<LineKind>)
    requires |pre| > 0 && pre[0].Header? && name !in HeaderNames(pre)
    ensures var n := LeadLength((pre + [Header(name)] + rest)[1..]);
      n < |pre| && pre' == pre[1 + n..] && name !in HeaderNames(pre') && pre[0].name != name
  {
    var tail := (pre + [Header(name)] + rest)[1..];
    assert tail == pre[1..] + [Header(name)] + rest;
    assert tail[|pre| - 1].Header?;
    var n := LeadLength(tail);
    var p := pre[1..];
    assert p == p[..n] + p[n..];
    HeaderNamesAppend(p[..n], p[n..]);
    assert HeaderNames(pre) == [pre[0].name] + HeaderNames(p);
    pre' := pre[1 + n..];
    assert p[n..] == pre';
  }

  // ---------------------------------------------------------------------------
  // The corrected scan computes `Expected`

  /** What a scan from `st` over `lines` ends with: the sections committed so
      far win over those `lines` define; the section in progress keeps its own
      keys and then gains the pairs of the lines up to the next header. */
  ghost function Merged(st: BuildState, lines: seq<LineKind>): Sections
    requires ValidFirstWins(st)
  {
    if st.skip then Expected(lines) + st.sections
    else
      var n := LeadLength(lines);
      Expected(lines[n..]) + st.sections[st.current.value := BodyPairs(lines[..n]) + st.keys]
  }

  lemma {:induction false} ScanFirstWinsMerges(st: BuildState, lines: seq<LineKind>)
    requires ValidFirstWins(st)
    ensures FinishFirstWins(ScanFirstWins(st, lines)) == Merged(st, lines)
    decreases |lines|
  {
    if |lines| == 0 {
      assert lines[..0] == [] && lines[0..] == [];
      assert map[] + st.keys == st.keys;
      assert map[] + st.sections == st.sections;
    } else {
      var st' := StepFirstWins(st, lines[0]);
      ScanFirstWinsMerges(st', lines[1..]);
      if lines[0].Header? {
        MergedAfterHeader(st, lines);
      } else {
        MergedAfterLine(st, lines);
      }
    }
  }

  lemma MergedAfterHeader(st: BuildState, lines: seq<LineKind>)
    requires ValidFirstWins(st) && |lines| > 0 && lines[0].Header?
    ensures Merged(StepFirstWins(st, lines[0]), lines[1..]) == Merged(st, lines)
  {
    var h := lines[0].name;
    var st' := StepFirstWins(st, lines[0]);
    var n := LeadLength(lines[1..]);
    var body := BodyPairs(lines[1..1 + n]);
    var later := Expected(lines[1 + n..]);
    MergedAtHeader(st, lines);
    ExpectedAtHeader(lines);
    MergedPastHeader(st, lines);
    UpdateUnderUnion(later, h, body, st'.sections);
  }

  /** Before a header, the section in progress has no body left to gain. */
  lemma MergedAtHeader(st: BuildState, lines: seq<LineKind>)
    requires ValidFirstWins(st) && |lines| > 0 && lines[0].Header?
    ensures Merged(st, lines) == Expected(lines) + StepFirstWins(st, lines[0]).sections
  {
    if !st.skip {
      assert LeadLength(lines) == 0;
      assert lines[..0] == [] && lines[0..] == lines;
      assert BodyPairs([]) + st.keys == st.keys;
    }
  }

  /** Past a header, its body is added unless its name is already committed. */
  lemma MergedPastHeader(st: BuildState, lines: seq<LineKind>)
    requires ValidFirstWins(st) && |lines| > 0 && lines[0].Header?
    ensures var st', n := StepFirstWins(st, lines[0]), LeadLength(lines[1..]);
      var body, later := BodyPairs(lines[1..1 + n]), Expected(lines[1 + n..]);
      Merged(st', lines[1..]) ==
        if lines[0].name in st'.sections then later + st'.sections
        else later + st'.sections[lines[0].name := body]
  {
    var st' := StepFirstWins(st, lines[0]);
    assert st'.keys == map[] && st'.current == Some(lines[0].name);
    assert st'.skip <==> lines[0].name in st'.sections;
    var tail := lines[1..];
    var n := LeadLength(tail);
    TailAfterLead(lines, n);
    ExpectedSkipsLead(tail);
    MergedFreshSection(st', tail);
  }

  lemma TailAfterLead(lines: seq<LineKind>, n: nat)
    requires 1 + n <= |lines|
    ensures lines[1..][n..] == lines[1 + n..] && lines[1..][..n] == lines[1..1 + n]
  {
  }

  /** A section just opened has no keys yet: its body is all it gains. */
  lemma MergedFreshSection(st: BuildState, lines: seq<LineKind>)
    requires ValidFirstWins(st) && st.keys == map[]
    ensures !st.skip ==>
      Merged(st, lines) == Expected(lines[LeadLength(lines)..]) + st.sections[st.current.value := BodyPairs(lines[..LeadLength(lines)])]
    ensures st.skip ==> Merged(st, lines) == Expected(lines) + st.sections
  {
    var body := BodyPairs(lines[..LeadLength(lines)]);
    assert body + map[] == body;
  }

  /** A binding added to the weaker side of a union survives only where the
      stronger side is silent. */
  lemma UpdateUnderUnion<V>(weak: map<string, V>, key: string, value: V, strong: map<string, V>)
    ensures key in strong ==> weak[key := value] + strong == weak + strong
    ensures key !in strong ==> weak[key := value] + strong == weak + strong[key := value]
  {
    if key in strong {
      assert (weak[key := value] + strong).Keys == (weak + strong).Keys;
    } else {
      assert (weak[key := value] + strong).Keys == (weak + strong[key := value]).Keys;
    }
  }

  lemma MergedAfterLine(st: BuildState, lines: seq<LineKind>)
    requires ValidFirstWins(st) && |lines| > 0 && !lines[0].Header?
    ensures Merged(StepFirstWins(st, lines[0]), lines[1..]) == Merged(st, lines)
  {
    if st.skip {
      ExpectedPastLine(lines);
    } else {
      MergedAfterBodyLine(st, lines);
    }
  }

  lemma MergedAfterBodyLine(st: BuildState, lines: seq<LineKind>)
    requires ValidFirstWins(st) && !st.skip && |lines| > 0 && !lines[0].Header?
    ensures Merged(StepFirstWins(st, lines[0]), lines[1..]) == Merged(st, lines)
  {
    var tail := lines[1..];
    var n' := LeadLength(tail);
    assert LeadLength(lines) == 1 + n';
    var lead := lines[..1 + n'];
    assert lead[0] == lines[0] && lead[1..] == tail[..n'];
    assert lines[1 + n'..] == tail[n'..];
    var inner := BodyPairs(tail[..n']);
    if lines[0].Pair? {
      var key, value := lines[0].key, lines[0].value;
      assert BodyPairs(lead) == if key == "" then inner else inner[key := value];
      UnionTakePair(inner, st.keys, key, value);
    } else {
      assert BodyPairs(lead) == inner;
    }
  }

  /** Taking a pair into the stronger side of a union is adding it to the
      weaker side: either way an earlier binding of the key wins. */
  lemma UnionTakePair(weak: Section, strong: Section, key: string, value: string)
    ensures weak + TakePair(strong, key, value) == (if key == "" then weak else weak[key := value]) + strong
  {
    if key != "" {
      UpdateUnderUnion(weak, key, value, strong);
    }
  }

  /** The corrected build is the documented first-wins result on every input. */
  lemma BuildFirstWinsIsExpected(lines: seq<string>)
    ensures BuildFirstWins(lines) == Expected(Kinds(lines))
  {
    ScanFirstWinsMerges(Start, Kinds(lines));
    assert Expected(Kinds(lines)) + map[] == Expected(Kinds(lines));
  }

  /** The corrected build has a section for exactly the header names of the
      file, each holding only non-empty keys that some key line defines. */
  lemma BuildFirstWinsDomain(lines: seq<string>)
    ensures forall n :: n in BuildFirstWins(lines) <==> n in HeaderNames(Kinds(lines))
    ensures KeysDefined(Kinds(lines), BuildFirstWins(lines))
  {
    BuildFirstWinsIsExpected(lines);
    ExpectedDomain(Kinds(lines));
    ExpectedDefined(Kinds(lines));
  }

  // ---------------------------------------------------------------------------
  // The scan as written agrees when no section name repeats

  /** A state reached before any repeat: either no header yet, or a section in
      progress whose name has not been committed. */
  predicate Settled(st: BuildState) {
    || (st.current.None? && st.skip)
    || (st.current.Some? && !st.skip && st.current.value !in st.sections)
  }

  /** The headers still to come are distinct and new. */
  predicate Fresh(st: BuildState, lines: seq<LineKind>) {
    && Distinct(HeaderNames(lines))
    && forall n :: n in HeaderNames(lines) ==> n !in st.sections && st.current != Some(n)
  }

  lemma {:induction false} ScanAgreesWhenFresh(st: BuildState, lines: seq<LineKind>)
    requires Settled(st) && Fresh(st, lines)
    ensures Finish(Scan(st, lines)) == Ok(FinishFirstWins(ScanFirstWins(st, lines)))
    decreases |lines|
  {
    if |lines| > 0 {
      StepKeepsFresh(st, lines);
      ScanAgreesWhenFresh(Step(st, lines[0]), lines[1..]);
    }
  }

  /** Before any repeated name, one step of either scan is the same step, and
      it leads to a state again ahead of any repeat. */
  lemma StepKeepsFresh(st: BuildState, lines: seq<LineKind>)
    requires Settled(st) && Fresh(st, lines) && |lines| > 0
    ensures Step(st, lines[0]) == StepFirstWins(st, lines[0])
    ensures Settled(Step(st, lines[0])) && Fresh(Step(st, lines[0]), lines[1..])
  {
    var tail := lines[1..];
    var k := if lines[0].Header? then 1 else 0;
    assert HeaderNames(lines) == (if lines[0].Header? then [lines[0].name] else []) + HeaderNames(tail);
    assert forall i :: 0 <= i < |HeaderNames(tail)| ==> HeaderNames(tail)[i] == HeaderNames(lines)[i + k];
    if lines[0].Header? {
      assert HeaderNames(lines)[0] == lines[0].name;
    }
  }

  /** When every header names a different section, the build as written
      succeeds and yields the documented result: one section per header name,
      each holding the first-wins pairs of its own body. */
  lemma BuildDistinct(lines: seq<string>)
    requires Distinct(HeaderNames(Kinds(lines)))
    ensures Build(lines) == Ok(Expected(Kinds(lines)))
    ensures forall n :: n in Build(lines).value <==> n in HeaderNames(Kinds(lines))
  {
    ScanAgreesWhenFresh(Start, Kinds(lines));
    BuildFirstWinsIsExpected(lines);
    ExpectedDomain(Kinds(lines));
  }

  /** The section of a header, in a file whose headers are distinct, holds the
      pairs of the lines from that header up to the next one. */
  lemma BuildSectionBody(lines: seq<string>, i: nat, name: string)
    requires Distinct(HeaderNames(Kinds(lines)))
    requires i < |lines| && ClassifyBuild(lines[i]) == Header(name)
    ensures Build(lines).Ok? && name in Build(lines).value
    ensures var body := Kinds(lines)[i + 1..];
      Build(lines).value[name] == BodyPairs(body[..LeadLength(body)])
  {
    var kinds := Kinds(lines);
    KindsAt(lines, i);
    EarlierNamesDiffer(kinds, i, name);
    BuildDistinct(lines);
    ExpectedSectionBody(kinds[..i], name, kinds[i + 1..]);
    SplitAt(kinds, i);
  }

  lemma SplitAt<T>(s: seq<T>, i: nat)
    requires i < |s|
    ensures s == s[..i] + [s[i]] + s[i + 1..]
  {
  }

  /** With distinct headers, no header before position `i` repeats the name
      of the header at `i`. */
  lemma EarlierNamesDiffer(kinds: seq<LineKind>, i: nat, name: string)
    requires Distinct(HeaderNames(kinds))
    requires i < |kinds| && kinds[i] == Header(name)
    ensures name !in HeaderNames(kinds[..i])
  {
    var pre := kinds[..i];
    var rest := kinds[i + 1..];
    assert kinds == pre + ([Header(name)] + rest);
    HeaderNamesAppend(pre, [Header(name)] + rest);
    assert HeaderNames([Header(name)] + rest) == [name] + HeaderNames(rest);
    DistinctSplit(HeaderNames(pre), name, HeaderNames(rest));
  }

  lemma DistinctSplit(a: seq<string>, x: string, b: seq<string>)
    requires Distinct(a + ([x] + b))
    ensures x !in a
  {
    var all := a + ([x] + b);
    forall j | 0 <= j < |a|
      ensures a[j] != x
    {
      assert all[j] == a[j] && all[|a|] == x;
    }
  }

  // ---------------------------------------------------------------------------
  // Key lines before the first header

  lemma {:induction false} ScanAppend(st: BuildState, a: seq<LineKind>, b: seq<LineKind>)
    requires Valid(st)
    ensures Scan(st, a + b) == Scan(Scan(st, a), b)
    decreases |a|
  {
    if |a| > 0 {
      assert (a + b)[0] == a[0];
      assert (a + b)[1..] == a[1..] + b;
      ScanAppend(Step(st, a[0]), a[1..], b);
    } else {
      assert a + b == b;
    }
  }

  lemma {:induction false} LeadLeavesStart(pre: seq<LineKind>)
    requires HeaderNames(pre) == []
    ensures Scan(Start, pre) == Start
    decreases |pre|
  {
    if |pre| > 0 {
      assert !pre[0].Header?;
      LeadLeavesStart(pre[1..]);
    }
  }

  /** Lines before the first header never contribute: the skip flag starts set. */
  lemma {:induction false} KindsAppend(a: seq<string>, b: seq<string>)
    ensures Kinds(a + b) == Kinds(a) + Kinds(b)
    decreases |a|
  {
    if |a| == 0 {
      assert a + b == b;
    } else {
      assert (a + b)[0] == a[0];
      assert (a + b)[1..] == a[1..] + b;
      KindsAppend(a[1..], b);
    }
  }

  /** The kind of line `i` is its build classification. */
  lemma {:induction false} KindsAt(lines: seq<string>, i: nat)
    requires i < |lines|
    ensures Kinds(lines)[i] == ClassifyBuild(lines[i])
    decreases i
  {
    if i > 0 {
      KindsAt(lines[1..], i - 1);
    }
  }

  lemma BuildIgnoresLeadIn(pre: seq<string>, lines: seq<string>)
    requires HeaderNames(Kinds(pre)) == []
    ensures Build(pre + lines) == Build(lines)
  {
    KindsAppend(pre, lines);
    ScanAppend(Start, Kinds(pre), Kinds(lines));
    LeadLeavesStart(Kinds(pre));
  }

  /** On every file, repeated headers included, the build as written binds
      only non-empty keys, each the key of some key line. */
  lemma BuildKeysDefined(lines: seq<string>)
    ensures Build(lines).Ok? ==> KeysDefined(Kinds(lines), Build(lines).value)
    ensures Build(lines).Ok? ==> forall n :: n in Build(lines).value ==> "" !in Build(lines).value[n]
  {
    var kinds := Kinds(lines);
    assert kinds[0..] == kinds;
    ScanKeysFrom(kinds, Start, 0);
    var st := Scan(Start, kinds);
    if !st.skip && st.current.value !in st.sections {
      CommitKeys(kinds, st.sections, st.current.value, st.keys);
    }
  }

  /** Every key the scan holds, committed or in progress, is non-empty and
      defined by a key line of `all`. */
  predicate KeysFrom(all: seq<LineKind>, st: BuildState) {
    KeysDefined(all, st.sections) && KeysOf(all, st.keys)
  }

  predicate KeysOf(all: seq<LineKind>, keys: Section) {
    forall k :: k in keys ==> k != "" && exists i :: 0 <= i < |all| && DefinesKey(all[i], k)
  }

  lemma CommitKeys(all: seq<LineKind>, sections: Sections, name: string, keys: Section)
    requires KeysDefined(all, sections) && KeysOf(all, keys)
    ensures KeysDefined(all, sections[name := keys])
  {
    var updated := sections[name := keys];
    forall m, k | m in updated && k in updated[m]
      ensures k != "" && exists i :: 0 <= i < |all| && DefinesKey(all[i], k)
    {
      if m == name {
        assert k in keys;
      }
    }
  }

  lemma {:induction false} ScanKeysFrom(all: seq<LineKind>, st: BuildState, d: nat)
    requires d <= |all| && Valid(st) && KeysFrom(all, st)
    ensures KeysFrom(all, Scan(st, all[d..]))
    decreases |all| - d
  {
    if d < |all| {
      StepKeysFrom(all, st, d);
      assert all[d..][0] == all[d] && all[d..][1..] == all[d + 1..];
      ScanKeysFrom(all, Step(st, all[d]), d + 1);
    }
  }

  lemma StepKeysFrom(all: seq<LineKind>, st: BuildState, j: nat)
    requires j < |all| && Valid(st) && KeysFrom(all, st)
    ensures KeysFrom(all, Step(st, all[j]))
  {
    match all[j]
    case Header(name) =>
      if st.current.Some? && st.current.value !in st.sections {
        CommitKeys(all, st.sections, st.current.value, st.keys);
      }
    case Pair(key, value) =>
      if !st.skip && key != "" && key !in st.keys {
        assert DefinesKey(all[j], key);
      }
    case _ =>
  }

  /** A file without headers loads as a present but empty section map. */
  lemma BuildWithoutHeaders(lines: seq<string>)
    requires HeaderNames(Kinds(lines)) == []
    ensures Build(lines) == Ok(map[])
  {
    LeadLeavesStart(Kinds(lines));
  }
}

=== FILE: build_findings.dfy ===
/** Files with a repeated section name, on which the build as written departs
    from its documented promise that only the first occurrence of a section is
    taken. Each lemma runs both scans over a small file, written with the same
    header and key lines a writer would produce, and compares them with
    `Expected`. */
module BuildFindings {
  import opened Results
  import opened Text
  import opened Lines
  import opened Builder
  import opened BuilderFacts

  /** Both scans over a short file, one step per line. */
  lemma ScanFour(st: BuildState, x0: LineKind, x1: LineKind, x2: LineKind, x3: LineKind)
    requires Valid(st)
    ensures Scan(st, [x0, x1, x2, x3]) == Step(Step(Step(Step(st, x0), x1), x2), x3)
  {
    var s1 := Step(st, x0);
    var s2 := Step(s1, x1);
    var s3 := Step(s2, x2);
    assert Scan(st, [x0, x1, x2, x3]) == Scan(s1, [x1, x2, x3]) by {
      assert [x0, x1, x2, x3][1..] == [x1, x2, x3];
    }
    assert Scan(s1, [x1, x2, x3]) == Scan(s2, [x2, x3]) by {
      assert [x1, x2, x3][1..] == [x2, x3];
    }
    assert Scan(s2, [x2, x3]) == Scan(s3, [x3]) by {
      assert [x2, x3][1..] == [x3];
    }
    assert Scan(s3, [x3]) == Step(s3, x3) by {
      assert [x3][1..] == [];
    }
  }

  lemma ScanFirstWinsFour(st: BuildState, x0: LineKind, x1: LineKind, x2: LineKind, x3: LineKind)
    requires ValidFirstWins(st)
    ensures ScanFirstWins(st, [x0, x1, x2, x3])
         == StepFirstWins(StepFirstWins(StepFirstWins(StepFirstWins(st, x0), x1), x2), x3)
  {
    var s1 := StepFirstWins(st, x0);
    var s2 := StepFirstWins(s1, x1);
    var s3 := StepFirstWins(s2, x2);
    assert ScanFirstWins(st, [x0, x1, x2, x3]) == ScanFirstWins(s1, [x1, x2, x3]) by {
      assert [x0, x1, x2, x3][1..] == [x1, x2, x3];
    }
    assert ScanFirstWins(s1, [x1, x2, x3]) == ScanFirstWins(s2, [x2, x3]) by {
      assert [x1, x2, x3][1..] == [x2, x3];
    }
    assert ScanFirstWins(s2, [x2, x3]) == ScanFirstWins(s3, [x3]) by {
      assert [x2, x3][1..] == [x3];
    }
    assert ScanFirstWins(s3, [x3]) == StepFirstWins(s3, x3) by {
      assert [x3][1..] == [];
    }
  }

  /** The kinds of a four-line file. */
  lemma KindsFour(l0: string, l1: string, l2: string, l3: string)
    ensures Kinds([l0, l1, l2, l3]) == [ClassifyBuild(l0), ClassifyBuild(l1), ClassifyBuild(l2), ClassifyBuild(l3)]
  {
    SplitFour(l0, l1, l2, l3);
    KindsAppend([l0, l1], [l2, l3]);
    KindsTwo(l0, l1);
    KindsTwo(l2, l3);
    SplitFour(ClassifyBuild(l0), ClassifyBuild(l1), ClassifyBuild(l2), ClassifyBuild(l3));
  }

  lemma SplitFour<T>(x0: T, x1: T, x2: T, x3: T)
    ensures [x0, x1, x2, x3] == [x0, x1] + [x2, x3]
  {
  }

  lemma KindsSix(l0: string, l1: string, l2: string, l3: string, l4: string, l5: string)
    ensures Kinds([l0, l1, l2, l3, l4, l5])
         == [ClassifyBuild(l0), ClassifyBuild(l1), ClassifyBuild(l2), ClassifyBuild(l3), ClassifyBuild(l4), ClassifyBuild(l5)]
  {
    SplitSix(l0, l1, l2, l3, l4, l5);
    KindsAppend([l0, l1], [l2, l3, l4, l5]);
    KindsTwo(l0, l1);
    KindsFour(l2, l3, l4, l5);
    SplitSix(ClassifyBuild(l0), ClassifyBuild(l1), ClassifyBuild(l2), ClassifyBuild(l3), ClassifyBuild(l4), ClassifyBuild(l5));
  }

  lemma SplitSix<T>(x0: T, x1: T, x2: T, x3: T, x4: T, x5: T)
    ensures [x0, x1, x2, x3, x4, x5] == [x0, x1] + [x2, x3, x4, x5]
  {
  }

  lemma KindsTwo(l0: string, l1: string)
    ensures Kinds([l0, l1]) == [ClassifyBuild(l0), ClassifyBuild(l1)]
  {
    assert [l0, l1][1..] == [l1];
    assert [l1][1..] == [];
  }

  lemma ScanSix(st: BuildState, x0: LineKind, x1: LineKind, x2: LineKind, x3: LineKind, x4: LineKind, x5: LineKind)
    requires Valid(st)
    ensures Scan(st, [x0, x1, x2, x3, x4, x5]) == Scan(Step(Step(st, x0), x1), [x2, x3, x4, x5])
  {
    var s1 := Step(st, x0);
    assert Scan(st, [x0, x1, x2, x3, x4, x5]) == Scan(s1, [x1, x2, x3, x4, x5]) by {
      assert [x0, x1, x2, x3, x4, x5][1..] == [x1, x2, x3, x4, x5];
    }
    assert Scan(s1, [x1, x2, x3, x4, x5]) == Scan(Step(s1, x1), [x2, x3, x4, x5]) by {
      assert [x1, x2, x3, x4, x5][1..] == [x2, x3, x4, x5];
    }
  }

  // ---------------------------------------------------------------------------
  // `[A] k=1 [A] k=2`: the last section repeats an earlier name

  /** The build as written fails with `SectionAlreadyAdded` instead of keeping
      the first `[a]`; the corrected build keeps it, as `Expected` does. */
  lemma RepeatedLastSection(a: string, k: string, v1: string, v2: string)
    requires PlainName(a) && PlainKey(k) && PlainValue(v1) && PlainValue(v2)
    ensures var lines := [FormatHeader(a), FormatPair(k, v1), FormatHeader(a), FormatPair(k, v2)];
      && Build(lines) == Err(SectionAlreadyAdded(a))
      && BuildFirstWins(lines) == map[a := map[k := v1]]
      && Expected(Kinds(lines)) == map[a := map[k := v1]]
  {
    var lines := [FormatHeader(a), FormatPair(k, v1), FormatHeader(a), FormatPair(k, v2)];
    var kinds := [Header(a), Pair(k, v1), Header(a), Pair(k, v2)];
    assert Kinds(lines) == kinds by {
      KindsFour(FormatHeader(a), FormatPair(k, v1), FormatHeader(a), FormatPair(k, v2));
      FormatHeaderRoundTrip(a);
      FormatPairRoundTrip(k, v1);
      FormatPairRoundTrip(k, v2);
    }
    RepeatedLastScan(a, k, v1, v2);
    assert Build(lines) == Finish(Scan(Start, kinds));
    assert BuildFirstWins(lines) == FinishFirstWins(ScanFirstWins(Start, kinds));
    BuildFirstWinsIsExpected(lines);
  }

  lemma RepeatedLastScan(a: string, k: string, v1: string, v2: string)
    requires k != ""
    ensures var kinds := [Header(a), Pair(k, v1), Header(a), Pair(k, v2)];
      && Finish(Scan(Start, kinds)) == Err(SectionAlreadyAdded(a))
      && FinishFirstWins(ScanFirstWins(Start, kinds)) == map[a := map[k := v1]]
  {
    // As written: the second `[a]` is not skipped, so the final `Add` throws.
    ScanFour(Start, Header(a), Pair(k, v1), Header(a), Pair(k, v2));
    var s2 := BuildState(false, Some(a), map[], map[k := v1]);
    assert Step(Step(Start, Header(a)), Pair(k, v1)) == s2;
    var s3 := BuildState(false, Some(a), map[a := map[k := v1]], map[]);
    assert Step(s2, Header(a)) == s3;
    // Corrected: the second `[a]` is skipped with its keys.
    ScanFirstWinsFour(Start, Header(a), Pair(k, v1), Header(a), Pair(k, v2));
    assert StepFirstWins(StepFirstWins(Start, Header(a)), Pair(k, v1)) == s2;
    var f3 := BuildState(true, Some(a), map[a := map[k := v1]], map[]);
    assert StepFirstWins(s2, Header(a)) == f3;
  }

  // ---------------------------------------------------------------------------
  // `[A] [A] [B] k=v`: the section after a repeat is lost

  /** The skip flag for `[b]` is computed from the previous name `a`, which is
      already present, so the build as written drops section `b` and its key;
      the corrected build keeps it. */
  lemma SectionAfterRepeatLost(a: string, b: string, k: string, v: string)
    requires PlainName(a) && PlainName(b) && a != b && PlainKey(k) && PlainValue(v)
    ensures var lines := [FormatHeader(a), FormatHeader(a), FormatHeader(b), FormatPair(k, v)];
      && Build(lines) == Ok(map[a := map[]])
      && BuildFirstWins(lines) == map[a := map[], b := map[k := v]]
      && Expected(Kinds(lines)) == map[a := map[], b := map[k := v]]
  {
    var lines := [FormatHeader(a), FormatHeader(a), FormatHeader(b), FormatPair(k, v)];
    var kinds := [Header(a), Header(a), Header(b), Pair(k, v)];
    assert Kinds(lines) == kinds by {
      KindsFour(FormatHeader(a), FormatHeader(a), FormatHeader(b), FormatPair(k, v));
      FormatHeaderRoundTrip(a);
      FormatHeaderRoundTrip(b);
      FormatPairRoundTrip(k, v);
    }
    LostSectionScan(a, b, k, v);
    assert Build(lines) == Finish(Scan(Start, kinds));
    assert BuildFirstWins(lines) == FinishFirstWins(ScanFirstWins(Start, kinds));
    BuildFirstWinsIsExpected(lines);
  }

  lemma LostSectionScan(a: string, b: string, k: string, v: string)
    requires a != b && k != ""
    ensures var kinds := [Header(a), Header(a), Header(b), Pair(k, v)];
      && Finish(Scan(Start, kinds)) == Ok(map[a := map[]])
      && FinishFirstWins(ScanFirstWins(Start, kinds)) == map[a := map[], b := map[k := v]]
  {
    // As written: `[b]` is skipped because `a` is already present.
    ScanFour(Start, Header(a), Header(a), Header(b), Pair(k, v));
    var s2 := BuildState(false, Some(a), map[a := map[]], map[]);
    assert Step(Step(Start, Header(a)), Header(a)) == s2;
    var s3 := BuildState(true, Some(b), map[a := map[]], map[]);
    assert Step(s2, Header(b)) == s3;
    // Corrected: the repeated `[a]` is skipped and `[b]` collected.
    ScanFirstWinsFour(Start, Header(a), Header(a), Header(b), Pair(k, v));
    var f2 := BuildState(true, Some(a), map[a := map[]], map[]);
    assert StepFirstWins(StepFirstWins(Start, Header(a)), Header(a)) == f2;
    var f4 := BuildState(false, Some(b), map[a := map[]], map[k := v]);
    assert StepFirstWins(StepFirstWins(f2, Header(b)), Pair(k, v)) == f4;
    assert map[a := map[]][b := map[k := v]] == map[a := map[], b := map[k := v]];
  }

  // ---------------------------------------------------------------------------
  // `[A] [B] [A] k=v [C] [D]`: the keys of a repeat land in the next section

  /** When `[c]` is skipped, the keys collected under the repeated `[a]` are
      kept in `sectionKeys` and committed under `c` at `[d]`: the build as
      written files `k=v` in section `c`, where the file has no keys. */
  lemma KeysOfRepeatMisfiled(a: string, b: string, c: string, d: string, k: string, v: string)
    requires PlainName(a) && PlainName(b) && PlainName(c) && PlainName(d)
    requires a != b && a != c && a != d && b != c && b != d && c != d
    requires PlainKey(k) && PlainValue(v)
    ensures var lines := [FormatHeader(a), FormatHeader(b), FormatHeader(a), FormatPair(k, v), FormatHeader(c), FormatHeader(d)];
      && Build(lines) == Ok(map[a := map[], b := map[], c := map[k := v], d := map[]])
      && BuildFirstWins(lines) == map[a := map[], b := map[], c := map[], d := map[]]
      && Expected(Kinds(lines)) == map[a := map[], b := map[], c := map[], d := map[]]
  {
    var lines := [FormatHeader(a), FormatHeader(b), FormatHeader(a), FormatPair(k, v), FormatHeader(c), FormatHeader(d)];
    var kinds := [Header(a), Header(b), Header(a), Pair(k, v), Header(c), Header(d)];
    assert Kinds(lines) == kinds by {
      KindsSix(FormatHeader(a), FormatHeader(b), FormatHeader(a), FormatPair(k, v), FormatHeader(c), FormatHeader(d));
      FormatHeaderRoundTrip(a);
      FormatHeaderRoundTrip(b);
      FormatHeaderRoundTrip(c);
      FormatHeaderRoundTrip(d);
      FormatPairRoundTrip(k, v);
    }
    MisfiledScan(a, b, c, d, k, v);
    assert Build(lines) == Finish(Scan(Start, kinds));
    MisfiledFirstWins(a, b, c, d, k, v);
    assert BuildFirstWins(lines) == FinishFirstWins(ScanFirstWins(Start, kinds));
    BuildFirstWinsIsExpected(lines);
  }

  lemma MisfiledScan(a: string, b: string, c: string, d: string, k: string, v: string)
    requires a != b && a != c && a != d && b != c && b != d && c != d && k != ""
    ensures var kinds := [Header(a), Header(b), Header(a), Pair(k, v), Header(c), Header(d)];
      Finish(Scan(Start, kinds)) == Ok(map[a := map[], b := map[], c := map[k := v], d := map[]])
  {
    var kinds := [Header(a), Header(b), Header(a), Pair(k, v), Header(c), Header(d)];
    var s2 := BuildState(false, Some(b), map[a := map[]], map[]);
    var s6 := BuildState(false, Some(d), map[a := map[], b := map[]][c := map[k := v]], map[]);
    assert Scan(Start, kinds) == Scan(s2, [Header(a), Pair(k, v), Header(c), Header(d)]) by {
      ScanSix(Start, Header(a), Header(b), Header(a), Pair(k, v), Header(c), Header(d));
      assert Step(Step(Start, Header(a)), Header(b)) == s2;
    }
    MisfiledScanTail(a, b, c, d, k, v);
    FourKeys(a, b, c, d, map[], map[k := v]);
  }

  /** From `[a]` onwards the keys under the repeated `[a]` are carried past
      the skipped `[c]` and committed under `c` at `[d]`. */
  lemma MisfiledScanTail(a: string, b: string, c: string, d: string, k: string, v: string)
    requires a != b && a != c && b != c && k != ""
    ensures Scan(BuildState(false, Some(b), map[a := map[]], map[]), [Header(a), Pair(k, v), Header(c), Header(d)])
         == BuildState(false, Some(d), map[a := map[], b := map[]][c := map[k := v]], map[])
  {
    var s2 := BuildState(false, Some(b), map[a := map[]], map[]);
    var s4 := BuildState(false, Some(a), map[a := map[], b := map[]], map[k := v]);
    var s5 := BuildState(true, Some(c), map[a := map[], b := map[]], map[k := v]);
    ScanFour(s2, Header(a), Pair(k, v), Header(c), Header(d));
    assert Step(s2, Header(a)) == s4.(keys := map[]);
    assert Step(s4, Header(c)) == s5;
  }

  /** Updates to four distinct keys. */
  lemma FourKeys<V>(a: string, b: string, c: string, d: string, x: V, y: V)
    requires a != b && a != c && a != d && b != c && b != d && c != d
    ensures map[a := x, b := x][c := y][d := x] == map[a := x, b := x, c := y, d := x]
  {
  }

  /** The corrected scan skips the repeated `[a]` together with its key. */
  lemma MisfiledFirstWins(a: string, b: string, c: string, d: string, k: string, v: string)
    requires a != b && a != c && a != d && b != c && b != d && c != d
    ensures var kinds := [Header(a), Header(b), Header(a), Pair(k, v), Header(c), Header(d)];
      FinishFirstWins(ScanFirstWins(Start, kinds)) == map[a := map[], b := map[], c := map[], d := map[]]
  {
    var kinds := [Header(a), Header(b), Header(a), Pair(k, v), Header(c), Header(d)];
    var f2 := BuildState(false, Some(b), map[a := map[]], map[]);
    assert ScanFirstWins(Start, kinds) == ScanFirstWins(f2, [Header(a), Pair(k, v), Header(c), Header(d)]) by {
      ScanFirstWinsSix(Start, Header(a), Header(b), Header(a), Pair(k, v), Header(c), Header(d));
      assert StepFirstWins(StepFirstWins(Start, Header(a)), Header(b)) == f2;
    }
    MisfiledFirstWinsTail(a, b, c, d, k, v);
    FourKeys<Section>(a, b, c, d, map[], map[]);
  }

  lemma MisfiledFirstWinsTail(a: string, b: string, c: string, d: string, k: string, v: string)
    requires a != b && a != c && a != d && b != c && b != d && c != d
    ensures ScanFirstWins(BuildState(false, Some(b), map[a := map[]], map[]), [Header(a), Pair(k, v), Header(c), Header(d)])
         == BuildState(false, Some(d), map[a := map[], b := map[]][c := map[]], map[])
  {
    var f2 := BuildState(false, Some(b), map[a := map[]], map[]);
    var f4 := BuildState(true, Some(a), map[a := map[], b := map[]], map[]);
    var f5 := BuildState(false, Some(c), map[a := map[], b := map[]], map[]);
    ScanFirstWinsFour(f2, Header(a), Pair(k, v), Header(c), Header(d));
    assert StepFirstWins(f2, Header(a)) == f4;
    assert StepFirstWins(f4, Pair(k, v)) == f4;
    assert StepFirstWins(f4, Header(c)) == f5;
    assert StepFirstWins(f5, Header(d)) == BuildState(false, Some(d), map[a := map[], b := map[]][c := map[]], map[]);
  }

  lemma ScanFirstWinsSix(st: BuildState, x0: LineKind, x1: LineKind, x2: LineKind, x3: LineKind, x4: LineKind, x5: LineKind)
    requires ValidFirstWins(st)
    ensures ScanFirstWins(st, [x0, x1, x2, x3, x4, x5])
         == ScanFirstWins(StepFirstWins(StepFirstWins(st, x0), x1), [x2, x3, x4, x5])
  {
    var s1 := StepFirstWins(st, x0);
    assert ScanFirstWins(st, [x0, x1, x2, x3, x4, x5]) == ScanFirstWins(s1, [x1, x2, x3, x4, x5]) by {
      assert [x0, x1, x2, x3, x4, x5][1..] == [x1, x2, x3, x4, x5];
    }
    assert ScanFirstWins(s1, [x1, x2, x3, x4, x5]) == ScanFirstWins(StepFirstWins(s1, x1), [x2, x3, x4, x5]) by {
      assert [x1, x2, x3, x4, x5][1..] == [x2, x3, x4, x5];
    }
  }
}

=== FILE: document.dfy ===
/** A loaded `INIFile` object and its instance queries.

    The object holds a name and, once loaded, the section map built from the
    file's lines; before loading (the parameterless constructor) the map is
    absent and every query fails with `NotLoaded`. Reading the file is left to
    the caller: `Open` and `LoadFile` take the lines `File.ReadAllLines` would
    return. A `null` argument is `None`. */
module Document {
  import opened Results
  import opened Text
  import opened Lines
  import opened Builder
  import opened BuilderFacts

  datatype IniFile = IniFile(name: Option<string>, sections: Option<Sections>)

  /** `new INIFile()`: no name and no section map. */
  const Unloaded := IniFile(None, None)

  /** `INIFile.IsNullOrEmpty(file)`: no object, or one never loaded, on which
      the `Sections` property and the queries throw. */
  function IsNullOrEmpty(file: Option<IniFile>): (r: bool)
    ensures r <==> file.None? || SectionNames(file.value).Err?
    ensures file.Some? ==> (r <==> ReadValue(file.value, None, None) == Err(NotLoaded))
  {
    file.None? || file.value.sections.None?
  }

  /** `new INIFile(filePath)`: the name is the path and the map is the build
      of the lines; a build that throws means no object. */
  function Open(path: string, lines: seq<string>): (r: Result<IniFile>)
    ensures r.Ok? <==> Build(lines).Ok?
    ensures r.Ok? ==> r.value.name == Some(path) && r.value.sections == Some(Build(lines).value)
    ensures r.Err? ==> r.error == Build(lines).error
  {
    match Build(lines)
    case Ok(sections) => Ok(IniFile(Some(path), Some(sections)))
    case Err(e) => Err(e)
  }

  /** What `LoadFile` leaves behind, with the exception it threw, if any. */
  datatype LoadOutcome = LoadOutcome(file: IniFile, thrown: Option<Error>)

  /** `file.LoadFile(filePath)`: the name and the map are replaced. The map is
      assigned before the scan starts, so when the final `Add` throws, the
      object keeps the sections committed up to then and counts as loaded. */
  function LoadFile(file: IniFile, path: string, lines: seq<string>): (r: LoadOutcome)
    ensures r.file.name == Some(path) && r.file.sections.Some?
    ensures r.thrown.None? <==> Build(lines).Ok?
    ensures r.thrown.None? ==> r.file.sections == Some(Build(lines).value)
    ensures r.thrown.Some? ==> r.thrown.value == Build(lines).error
  {
    var st := Scan(Start, Kinds(lines));
    match Finish(st)
    case Ok(sections) => LoadOutcome(IniFile(Some(path), Some(sections)), None)
    case Err(e) => LoadOutcome(IniFile(Some(path), Some(st.sections)), Some(e))
  }

  /** The `Sections` property: the names of all sections, or a
      `NullReferenceException` on an object never loaded. */
  function SectionNames(file: IniFile): (r: Result<set<string>>)
    ensures r.Err? <==> file.sections.None?
    ensures r.Err? ==> r.error == NullReference
    ensures r.Ok? ==> forall n :: n in r.value <==> n in file.sections.value
  {
    match file.sections
    case None => Err(NullReference)
    case Some(sections) => Ok(sections.Keys)
  }

  /** The name a section argument denotes, when it denotes one: a `null` or
      one that normalises to the empty string names no section. */
  function SectionArgument(section: Option<string>): (r: Option<string>)
    ensures r.Some? <==> section.Some? && |NormalizeSection(section.value)| > 0
    ensures r.Some? ==> r.value == NormalizeSection(section.value)
  {
    match section
    case None => None
    case Some(s) => var n := NormalizeSection(s); if |n| == 0 then None else Some(n)
  }

  /** `ContainsSection(section)`. */
  function ContainsSection(file: IniFile, section: Option<string>): (r: Result<bool>)
    ensures r.Err? <==> file.sections.None?
    ensures r.Err? ==> r.error == NotLoaded
    ensures r.Ok? ==> (r.value <==> SectionArgument(section).Some? && SectionArgument(section).value in file.sections.value)
  {
    match file.sections
    case None => Err(NotLoaded)
    case Some(sections) =>
      match SectionArgument(section)
      case None => Ok(false)
      case Some(n) => Ok(n in sections)
  }

  /** `ContainsSectionKey(section, key)`. Presence is checked with the
      normalised name but the section is then looked up with the argument as
      given, so an argument such as `[A]` for a present section `A` fails the
      lookup with `KeyNotFoundException`. The key is not trimmed. */
  function ContainsSectionKey(file: IniFile, section: Option<string>, key: Option<string>): (r: Result<bool>)
    ensures file.sections.None? ==> r == Err(NotLoaded)
    ensures file.sections.Some? ==> r.Ok? || r == Err(KeyNotFound)
    ensures r == Err(KeyNotFound) <==>
      && file.sections.Some? && key.Some?
      && ContainsSection(file, section) == Ok(true)
      && section.value !in file.sections.value
    ensures r == Ok(true) <==>
      && file.sections.Some? && key.Some? && ContainsSection(file, section) == Ok(true)
      && section.value in file.sections.value && key.value in file.sections.value[section.value]
  {
    match file.sections
    case None => Err(NotLoaded)
    case Some(sections) =>
      if key.None? || ContainsSection(file, section) != Ok(true) then Ok(false)
      else if section.value !in sections then Err(KeyNotFound)
      else Ok(key.value in sections[section.value])
  }

  /** The section a query's argument selects in a loaded file, if any. */
  function Selected(sections: Sections, section: Option<string>): (r: Option<Section>)
    ensures r.Some? <==> SectionArgument(section).Some? && SectionArgument(section).value in sections
    ensures r.Some? ==> r.value == sections[SectionArgument(section).value]
  {
    match SectionArgument(section)
    case None => None
    case Some(n) => if n in sections then Some(sections[n]) else None
  }

  /** Instance `ReadValue(section, key)`: the stored value, or `null` when
      the section or the key is `null`, normalises to nothing or is absent.
      The key is matched as given. */
  function ReadValue(file: IniFile, section: Option<string>, key: Option<string>): (r: Result<Option<string>>)
    ensures r.Err? <==> file.sections.None?
    ensures r.Err? ==> r.error == NotLoaded
    ensures r.Ok? && r.value.Some? <==>
      && file.sections.Some? && key.Some?
      && Selected(file.sections.value, section).Some?
      && key.value in Selected(file.sections.value, section).value
    ensures r.Ok? && r.value.Some? ==> r.value.value == Selected(file.sections.value, section).value[key.value]
  {
    match file.sections
    case None => Err(NotLoaded)
    case Some(sections) =>
      match Selected(sections, section)
      case None => Ok(None)
      case Some(keys) =>
        if key.None? || key.value !in keys then Ok(None) else Ok(Some(keys[key.value]))
  }

  /** `ReadValueOrDefault(section, key, defaultValue)`: the not-loaded check
      comes before the `try`, so it still throws; otherwise a missing value
      becomes the default. */
  function ReadValueOrDefault(file: IniFile, section: Option<string>, key: Option<string>, default: Option<string>): (r: Result<Option<string>>)
    ensures r.Err? <==> file.sections.None?
    ensures r.Err? ==> r.error == NotLoaded
    ensures r.Ok? && ReadValue(file, section, key).value.Some? ==> r.value == ReadValue(file, section, key).value
    ensures r.Ok? && ReadValue(file, section, key).value.None? ==> r.value == default
  {
    if file.sections.None? then Err(NotLoaded)
    else
      var found := ReadValue(file, section, key).value;
      if found.None? then Ok(default) else Ok(found)
  }

  /** Instance `ReadAllKeys(section)`: the keys of the selected section, or
      none; never `null`. Dictionary order is not modelled. */
  function ReadAllKeys(file: IniFile, section: Option<string>): (r: Result<set<string>>)
    ensures r.Err? <==> file.sections.None?
    ensures r.Err? ==> r.error == NotLoaded
    ensures r.Ok? ==> forall k :: k in r.value <==>
      Selected(file.sections.value, section).Some? && k in Selected(file.sections.value, section).value
  {
    match file.sections
    case None => Err(NotLoaded)
    case Some(sections) =>
      match Selected(sections, section)
      case None => Ok({})
      case Some(keys) => Ok(keys.Keys)
  }

  /** `ReadAllKeyValuePairs(section)`: the pairs of the selected section, or
      none; never `null`. */
  function ReadAllKeyValuePairs(file: IniFile, section: Option<string>): (r: Result<map<string, string>>)
    ensures r.Err? <==> file.sections.None?
    ensures r.Err? ==> r.error == NotLoaded
    ensures r.Ok? && Selected(file.sections.value, section).Some? ==> r.value == Selected(file.sections.value, section).value
    ensures r.Ok? && Selected(file.sections.value, section).None? ==> r.value == map[]
  {
    match file.sections
    case None => Err(NotLoaded)
    case Some(sections) =>
      match Selected(sections, section)
      case None => Ok(map[])
      case Some(keys) => Ok(keys)
  }

  // ---------------------------------------------------------------------------
  // Properties

  /** Every query fails with `NotLoaded` exactly on an object that
      `IsNullOrEmpty` reports, and only then. */
  lemma NotLoadedEverywhere(file: IniFile, section: Option<string>, key: Option<string>, default: Option<string>)
    ensures IsNullOrEmpty(Some(file)) <==> ContainsSection(file, section) == Err(NotLoaded)
    ensures IsNullOrEmpty(Some(file)) <==> ContainsSectionKey(file, section, key) == Err(NotLoaded)
    ensures IsNullOrEmpty(Some(file)) <==> ReadValue(file, section, key) == Err(NotLoaded)
    ensures IsNullOrEmpty(Some(file)) <==> ReadValueOrDefault(file, section, key, default) == Err(NotLoaded)
    ensures IsNullOrEmpty(Some(file)) <==> ReadAllKeys(file, section) == Err(NotLoaded)
    ensures IsNullOrEmpty(Some(file)) <==> ReadAllKeyValuePairs(file, section) == Err(NotLoaded)
  {
  }

  /** An opened file never reads a value for the empty key, whatever
      headers repeat: the build drops every empty key. */
  lemma OpenedEmptyKeyMissing(path: string, lines: seq<string>, section: Option<string>)
    requires Open(path, lines).Ok?
    ensures ReadValue(Open(path, lines).value, section, Some("")) == Ok(None)
  {
    BuildKeysDefined(lines);
  }

  /** The queries of a loaded object agree with one another: a value is read
      exactly when the section is there and lists the key, and it is the value
      `ReadAllKeyValuePairs` pairs with that key. */
  lemma QueriesAgree(file: IniFile, section: Option<string>, key: string)
    requires file.sections.Some?
    ensures ReadValue(file, section, Some(key)).value.Some? <==>
      ContainsSection(file, section).value && key in ReadAllKeys(file, section).value
    ensures ReadValue(file, section, Some(key)).value.Some? ==>
      key in ReadAllKeyValuePairs(file, section).value &&
      ReadValue(file, section, Some(key)).value.value == ReadAllKeyValuePairs(file, section).value[key]
    ensures forall k :: k in ReadAllKeys(file, section).value <==> k in ReadAllKeyValuePairs(file, section).value
  {
  }

  /** With a section argument already in normal form, `ContainsSectionKey`
      succeeds and answers whether `ReadValue` finds a value. */
  lemma ContainsSectionKeyPlain(file: IniFile, section: string, key: string)
    requires file.sections.Some? && NormalizeSection(section) == section
    ensures ContainsSectionKey(file, Some(section), Some(key)).Ok?
    ensures ContainsSectionKey(file, Some(section), Some(key)).value <==> ReadValue(file, Some(section), Some(key)).value.Some?
  {
  }

  /** Asking `ContainsSectionKey` about a present section `A` as `[A]`: the
      presence check passes but the lookup under `[A]` throws. */
  lemma ContainsSectionKeyBracketed(file: IniFile, name: string, key: string)
    requires file.sections.Some? && name in file.sections.value && FormatHeader(name) !in file.sections.value
    requires ']' !in name && |name| > 0 && name[0] != '[' && Trimmed(name)
    ensures ContainsSection(file, Some(FormatHeader(name))) == Ok(true)
    ensures ContainsSectionKey(file, Some(FormatHeader(name)), Some(key)) == Err(KeyNotFound)
  {
    NormalizesBracketed(name);
    assert SectionArgument(Some(FormatHeader(name))) == Some(name);
  }

  lemma NormalizesBracketed(name: string)
    requires ']' !in name && |name| > 0 && name[0] != '[' && Trimmed(name)
    ensures NormalizeSection(FormatHeader(name)) == name
  {
    FormatHeaderRoundTrip(name);
  }

  /** The value a section binds to a key, if any. */
  function Lookup(keys: Section, key: string): (r: Option<string>)
    ensures r.Some? <==> key in keys
    ensures r.Some? ==> r.value == keys[key]
  {
    if key in keys then Some(keys[key]) else None
  }

  /** The pairs of the section whose header is line `i`: those of the lines
      up to the next header, the first binding of a key winning. */
  function HeaderBody(kinds: seq<LineKind>, i: nat): Section
    requires i < |kinds|
  {
    BodyPairs(SectionLines(kinds, i))
  }

  /** Opening a file whose headers are all distinct, `ReadValue` on a header's
      name returns the first value its body binds to the key. */
  lemma OpenThenRead(path: string, lines: seq<string>, i: nat, name: string, key: string)
    requires Distinct(HeaderNames(Kinds(lines)))
    requires i < |lines| && ClassifyBuild(lines[i]) == Header(name)
    requires |name| > 0 && NormalizeSection(name) == name
    ensures Open(path, lines).Ok?
    ensures ReadValue(Open(path, lines).value, Some(name), Some(key)) == Ok(Lookup(HeaderBody(Kinds(lines), i), key))
  {
    OpenedHeader(lines, i, name);
    OpenedSection(path, lines, name, HeaderBody(Kinds(lines), i), key);
  }

  lemma OpenedHeader(lines: seq<string>, i: nat, name: string)
    requires Distinct(HeaderNames(Kinds(lines)))
    requires i < |lines| && ClassifyBuild(lines[i]) == Header(name)
    ensures Build(lines).Ok? && name in Build(lines).value
    ensures Build(lines).value[name] == HeaderBody(Kinds(lines), i)
  {
    BuildSectionBody(lines, i, name);
  }

  lemma OpenedSection(path: string, lines: seq<string>, name: string, keys: Section, key: string)
    requires Build(lines).Ok? && name in Build(lines).value && Build(lines).value[name] == keys
    requires |name| > 0 && NormalizeSection(name) == name
    ensures Open(path, lines).Ok?
    ensures ReadValue(Open(path, lines).value, Some(name), Some(key)) == Ok(Lookup(keys, key))
  {
    ReadPresentSection(Open(path, lines).value, name, keys, key);
  }

  lemma ReadPresentSection(file: IniFile, name: string, keys: Section, key: string)
    requires file.sections.Some? && name in file.sections.value && file.sections.value[name] == keys
    requires |name| > 0 && NormalizeSection(name) == name
    ensures ReadValue(file, Some(name), Some(key)) == Ok(Lookup(keys, key))
  {
    assert SectionArgument(Some(name)) == Some(name);
  }

  /** A failed load still leaves a loaded object, holding the sections
      committed before the repeated final one. */
  lemma FailedLoadStaysLoaded(file: IniFile, path: string, lines: seq<string>)
    requires Build(lines).Err?
    ensures !IsNullOrEmpty(Some(LoadFile(file, path, lines).file))
    ensures LoadFile(file, path, lines).thrown.Some?
    ensures var st := Scan(Start, Kinds(lines));
      st.current.Some? && st.current.value in LoadFile(file, path, lines).file.sections.value
  {
  }
}

=== FILE: file_findings.dfy ===
/** Small files on which the static operations show behaviour worth knowing:
    `WriteValue` rewriting more than the value, or failing on an empty one,
    and `ReadValue` and `ReadAllKeys` disagreeing about a repeated section.
    Every file is written with the header and key lines a writer would
    produce. */
module FileFindings {
  import opened Results
  import opened Text
  import opened Lines
  import opened Builder
  import opened FileOps

  lemma StaticKindsTwo(l0: string, l1: string)
    ensures StaticKinds([l0, l1]) == [ClassifyStatic(l0), ClassifyStatic(l1)]
  {
    assert [l0, l1][1..] == [l1];
    assert [l1][1..] == [];
  }

  lemma StaticKindsFour(l0: string, l1: string, l2: string, l3: string)
    ensures StaticKinds([l0, l1, l2, l3]) == [ClassifyStatic(l0), ClassifyStatic(l1), ClassifyStatic(l2), ClassifyStatic(l3)]
  {
    assert [l0, l1, l2, l3] == [l0, l1] + [l2, l3];
    StaticKindsConcat([l0, l1], [l2, l3]);
    StaticKindsTwo(l0, l1);
    StaticKindsTwo(l2, l3);
    assert [ClassifyStatic(l0), ClassifyStatic(l1)] + [ClassifyStatic(l2), ClassifyStatic(l3)]
        == [ClassifyStatic(l0), ClassifyStatic(l1), ClassifyStatic(l2), ClassifyStatic(l3)];
  }

  lemma {:induction false} StaticKindsConcat(a: seq<string>, b: seq<string>)
    ensures StaticKinds(a + b) == StaticKinds(a) + StaticKinds(b)
    decreases |a|
  {
    if |a| == 0 {
      assert a + b == b;
    } else {
      assert (a + b)[1..] == a[1..] + b;
      StaticKindsConcat(a[1..], b);
    }
  }

  /** The kinds of a file holding one section with one key line. */
  lemma OneSectionFile(name: string, key: string, value: string)
    requires PlainName(name) && PlainKey(key) && PlainValue(value)
    ensures StaticKinds([FormatHeader(name), FormatPair(key, value)]) == [Header(name), Pair(key, value)]
  {
    StaticKindsTwo(FormatHeader(name), FormatPair(key, value));
    FormatHeaderRoundTrip(name);
    FormatPairRoundTrip(key, value);
  }

  /** The old value is replaced wherever it occurs in the line, so a key line
      `k=k` written with `v` becomes `v=v`: the key is gone and reading it back
      yields the default. Writing in place keeps the key. */
  lemma ValueInKeyRewritesKey(name: string, key: string, value: string, default: Option<string>)
    requires PlainName(name) && Trimmed(name)
    requires PlainKey(key) && PlainValue(key) && PlainKey(value) && PlainValue(value) && key != value
    ensures WriteValue([FormatHeader(name), FormatPair(key, key)], Some(name), Some(key), Some(value)) ==
      Ok(Written([FormatHeader(name), FormatPair(value, value)], true))
    ensures ReadValue([FormatHeader(name), FormatPair(value, value)], Some(name), Some(key), default) == Ok(default)
    ensures WriteValueInPlace([FormatHeader(name), FormatPair(key, key)], Some(name), Some(key), Some(value)) ==
      Ok(Written([FormatHeader(name), FormatPair(key, value)], true))
    ensures ReadValue([FormatHeader(name), FormatPair(key, value)], Some(name), Some(key), default) == Ok(Some(value))
  {
    assert Trim(key) == key;
    var lines := [FormatHeader(name), FormatPair(key, key)];
    OneSectionFile(name, key, key);
    WriteOnSecondLine(lines, name, key, key, value);
    InPlaceOnSecondLine(lines, name, key, key, value);
    ReplaceKeyAndValue(key, value);
    InPlaceOfPair(key, key, value);
    OneSectionFile(name, value, value);
    ReadOnSecondLine([FormatHeader(name), FormatPair(value, value)], name, key, value, value, default);
    OneSectionFile(name, key, value);
    ReadOnSecondLine([FormatHeader(name), FormatPair(key, value)], name, key, key, value, default);
  }

  /** Writing to a file of one header and one key line for the key. */
  lemma WriteOnSecondLine(lines: seq<string>, name: string, key: string, prior: string, value: string)
    requires |lines| == 2 && StaticKinds(lines) == [Header(name), Pair(key, prior)]
    requires NormalizeSection(name) == name && Trim(key) == key
    ensures |prior| > 0 ==>
      WriteValue(lines, Some(name), Some(key), Some(value)) == Ok(Written([lines[0], Replace(lines[1], prior, value)], true))
    ensures |prior| == 0 ==> WriteValue(lines, Some(name), Some(key), Some(value)) == Err(FileHandling)
  {
    FirstHitSecond(name, key, key, prior);
    WriteAtSecond(lines, name, key, prior, value);
    if |prior| > 0 {
      SecondReplaced(lines, Replace(lines[1], prior, value));
    }
  }

  lemma WriteAtSecond(lines: seq<string>, section: string, key: string, prior: string, value: string)
    requires |lines| == 2 && FirstHit(StaticKinds(lines), None, NormalizeSection(section), Trim(key)) == Some(1)
    requires StaticKinds(lines)[1].value == prior
    ensures |prior| > 0 ==>
      WriteValue(lines, Some(section), Some(key), Some(value)) == Ok(Written(lines[1 := Replace(lines[1], prior, value)], true))
    ensures |prior| == 0 ==> WriteValue(lines, Some(section), Some(key), Some(value)) == Err(FileHandling)
  {
  }

  lemma SecondReplaced(lines: seq<string>, line: string)
    requires |lines| == 2
    ensures lines[1 := line] == [lines[0], line]
  {
  }

  /** Writing in place to a file of one header and one key line for the key. */
  lemma InPlaceOnSecondLine(lines: seq<string>, name: string, key: string, prior: string, value: string)
    requires |lines| == 2 && StaticKinds(lines) == [Header(name), Pair(key, prior)]
    requires NormalizeSection(name) == name && Trim(key) == key
    ensures WriteValueInPlace(lines, Some(name), Some(key), Some(value)) == Ok(Written([lines[0], InPlace(lines[1], value)], true))
  {
    FirstHitSecond(name, key, key, prior);
    InPlaceAtSecond(lines, name, key, value);
    SecondReplaced(lines, InPlace(lines[1], value));
  }

  lemma InPlaceAtSecond(lines: seq<string>, section: string, key: string, value: string)
    requires |lines| == 2 && FirstHit(StaticKinds(lines), None, NormalizeSection(section), Trim(key)) == Some(1)
    ensures WriteValueInPlace(lines, Some(section), Some(key), Some(value)) == Ok(Written(lines[1 := InPlace(lines[1], value)], true))
  {
  }

  /** Reading from a file of one header and one key line. */
  lemma ReadOnSecondLine(lines: seq<string>, name: string, key: string, other: string, value: string, default: Option<string>)
    requires |lines| == 2 && StaticKinds(lines) == [Header(name), Pair(other, value)]
    requires NormalizeSection(name) == name && Trim(key) == key
    ensures ReadValue(lines, Some(name), Some(key), default) == if other == key then Ok(Some(value)) else Ok(default)
  {
    FirstHitSecond(name, key, other, value);
  }

  lemma FirstHitSecond(name: string, key: string, other: string, value: string)
    ensures FirstHit([Header(name), Pair(other, value)], None, name, key) == if other == key then Some(1) else None
  {
    var kinds := [Header(name), Pair(other, value)];
    assert kinds[1..] == [Pair(other, value)];
    assert kinds[1..][1..] == [];
  }

  lemma ReplaceKeyAndValue(key: string, value: string)
    requires |key| > 0 && '=' !in key
    ensures Replace(FormatPair(key, key), key, value) == FormatPair(value, value)
  {
    var rest := ['='] + key;
    assert FormatPair(key, key) == key + rest;
    assert (key + rest)[..|key|] == key;
    assert (key + rest)[|key|..] == rest;
    assert rest[..|key|] != key by {
      assert rest[0] == '=' && key[0] != '=';
    }
    assert rest[1..] == key;
    ReplaceWhole(key, value);
  }

  lemma InPlaceOfPair(key: string, prior: string, value: string)
    requires '=' !in key && ';' !in prior
    ensures InPlace(FormatPair(key, prior), value) == FormatPair(key, value)
  {
    SplitFirstAt(key, '=', prior);
    CutAtAbsent(prior, ';');
    assert prior[|prior|..] == [];
  }

  /** A key line with an empty value cannot be written: `String.Replace`
      rejects an empty old value, and the exception surfaces as a file
      handling failure. Writing in place fills the value in. */
  lemma EmptyValueNotWritable(name: string, key: string, value: string, default: Option<string>)
    requires PlainName(name) && Trimmed(name) && PlainKey(key) && PlainValue(value)
    ensures WriteValue([FormatHeader(name), FormatPair(key, "")], Some(name), Some(key), Some(value)) == Err(FileHandling)
    ensures WriteValueInPlace([FormatHeader(name), FormatPair(key, "")], Some(name), Some(key), Some(value)) ==
      Ok(Written([FormatHeader(name), FormatPair(key, value)], true))
  {
    assert Trim(key) == key;
    OneSectionFile(name, key, "");
    WriteOnSecondLine([FormatHeader(name), FormatPair(key, "")], name, key, "", value);
    InPlaceOnSecondLine([FormatHeader(name), FormatPair(key, "")], name, key, "", value);
    InPlaceOfPair(key, "", value);
  }

  /** `ReadValue` looks for the key in every occurrence of a section, while
      `ReadAllKeys` stops at the end of the first: in `[a] [b] [a] k=v` the
      value of `k` in `a` is `v`, yet `a` lists no keys. */
  lemma RepeatedSectionReadsDiffer(a: string, b: string, key: string, value: string, default: Option<string>)
    requires PlainName(a) && Trimmed(a) && PlainName(b) && a != b
    requires PlainKey(key) && PlainValue(value)
    ensures ReadValue([FormatHeader(a), FormatHeader(b), FormatHeader(a), FormatPair(key, value)], Some(a), Some(key), default) ==
      Ok(Some(value))
    ensures ReadAllKeys([FormatHeader(a), FormatHeader(b), FormatHeader(a), FormatPair(key, value)], Some(a)) == Ok([])
  {
    var lines := [FormatHeader(a), FormatHeader(b), FormatHeader(a), FormatPair(key, value)];
    assert Trim(key) == key;
    RepeatedSectionKinds(a, b, key, value);
    RepeatedSectionScans(lines, a, b, key, value, default);
  }

  lemma RepeatedSectionKinds(a: string, b: string, key: string, value: string)
    requires PlainName(a) && PlainName(b) && PlainKey(key) && PlainValue(value)
    ensures StaticKinds([FormatHeader(a), FormatHeader(b), FormatHeader(a), FormatPair(key, value)]) ==
      [Header(a), Header(b), Header(a), Pair(key, value)]
  {
    StaticKindsFour(FormatHeader(a), FormatHeader(b), FormatHeader(a), FormatPair(key, value));
    FormatHeaderRoundTrip(a);
    FormatHeaderRoundTrip(b);
    FormatPairRoundTrip(key, value);
  }

  lemma RepeatedSectionScans(lines: seq<string>, a: string, b: string, key: string, value: string, default: Option<string>)
    requires StaticKinds(lines) == [Header(a), Header(b), Header(a), Pair(key, value)] && a != b
    requires NormalizeSection(a) == a && Trim(key) == key
    ensures ReadValue(lines, Some(a), Some(key), default) == Ok(Some(value))
    ensures ReadAllKeys(lines, Some(a)) == Ok([])
  {
    RepeatedSectionHit(a, b, key, value);
    RepeatedSectionCollect(a, b, key, value);
  }

  lemma RepeatedSectionHit(a: string, b: string, key: string, value: string)
    requires a != b
    ensures FirstHit([Header(a), Header(b), Header(a), Pair(key, value)], None, a, key) == Some(3)
  {
    var kinds := [Header(a), Header(b), Header(a), Pair(key, value)];
    assert kinds[1..] == [Header(b), Header(a), Pair(key, value)];
    assert kinds[1..][1..] == [Header(a), Pair(key, value)];
    assert kinds[1..][1..][1..] == [Pair(key, value)];
    assert FirstHit(kinds[1..][1..][1..], Some(a), a, key) == Some(0);
    assert FirstHit(kinds[1..][1..], Some(b), a, key) == Some(1);
    assert FirstHit(kinds[1..], Some(a), a, key) == Some(2);
  }

  lemma RepeatedSectionCollect(a: string, b: string, key: string, value: string)
    requires a != b
    ensures CollectKeys([Header(a), Header(b), Header(a), Pair(key, value)], None, a) == []
  {
    var kinds := [Header(a), Header(b), Header(a), Pair(key, value)];
    assert kinds[1..] == [Header(b), Header(a), Pair(key, value)];
  }

  lemma TwoHeaders(a: string)
    requires PlainName(a)
    ensures StaticKinds([FormatHeader(a), FormatHeader(a)]) == [Header(a), Header(a)]
  {
    StaticKindsTwo(FormatHeader(a), FormatHeader(a));
    FormatHeaderRoundTrip(a);
  }

  /** `ReadAllSections` lists a repeated section once per header, where the
      section map of a loaded file holds each name once. */
  lemma RepeatedSectionListedTwice(a: string)
    requires PlainName(a)
    ensures HeaderNames(StaticKinds([FormatHeader(a), FormatHeader(a)])) == [a, a]
  {
    TwoHeaders(a);
    HeaderNamesTwo(a);
  }

  lemma HeaderNamesTwo(a: string)
    ensures HeaderNames([Header(a), Header(a)]) == [a, a]
  {
    var kinds := [Header(a), Header(a)];
    assert kinds[1..] == [Header(a)];
    assert kinds[1..][1..] == [];
    assert HeaderNames(kinds[1..]) == [a] + [];
  }
}

=== FILE: file_ops.dfy ===
/** The static operations, which work on a file's lines directly without
    building a section map.

    Each one reads the file line by line, remembering the section of the last
    header seen. The file's lines are a parameter: streaming them from disk,
    writing through a temporary file and copying it back are left to the
    caller, and any failure there is the `FileHandling` error. A `null`
    argument is `None`. */
module FileOps {
  import opened Results
  import opened Text
  import opened Lines
  import opened Builder
  import opened BuilderFacts

  /** Every line classified as the static operations classify it. */
  function StaticKinds(lines: seq<string>): (r: seq<LineKind>)
    ensures |r| == |lines|
  {
    if |lines| == 0 then [] else [ClassifyStatic(lines[0])] + StaticKinds(lines[1..])
  }

  /** The current section after a line: a header opens its section, any
      other line leaves it unchanged. */
  function Next(line: LineKind, current: Option<string>): Option<string> {
    if line.Header? then Some(line.name) else current
  }

  /** The section line `j` belongs to: the name of the last header before it,
      or `start` when there is none. */
  function Owner(lines: seq<LineKind>, j: nat, start: Option<string>): Option<string>
    requires j <= |lines|
    decreases j
  {
    if j == 0 then start else Next(lines[j - 1], Owner(lines, j - 1, start))
  }

  /** Line `j` is a key line for `key` inside section `section`. */
  predicate Hit(lines: seq<LineKind>, start: Option<string>, j: nat, section: string, key: string) {
    j < |lines| && lines[j].Pair? && lines[j].key == key && Owner(lines, j, start) == Some(section)
  }

  /** The loop shared by `ReadValue` and `WriteValue`: the position of the
      first key line for `key` met while the current section is `section`. */
  function FirstHit(lines: seq<LineKind>, current: Option<string>, section: string, key: string): (r: Option<nat>)
    ensures r.Some? ==> r.value < |lines| && lines[r.value].Pair? && lines[r.value].key == key
    decreases |lines|
  {
    if |lines| == 0 then None
    else if lines[0].Pair? && current == Some(section) && lines[0].key == key then Some(0)
    else
      match FirstHit(lines[1..], Next(lines[0], current), section, key)
      case None => None
      case Some(j) => Some(j + 1)
  }

  // ---------------------------------------------------------------------------
  // ReadValue

  /** `INIFile.ReadValue(filePath, section, key, defaultValue)`: the value of
      the first key line for the trimmed key inside any occurrence of the
      normalised section, or the default. */
  function ReadValue(lines: seq<string>, section: Option<string>, key: Option<string>, default: Option<string>): (r: Result<Option<string>>)
    ensures r.Err? <==> section.None? || key.None?
    ensures r.Err? ==> r.error == ArgumentNull
  {
    if section.None? || key.None? then Err(ArgumentNull)
    else
      var kinds := StaticKinds(lines);
      match FirstHit(kinds, None, NormalizeSection(section.value), Trim(key.value))
      case None => Ok(default)
      case Some(j) => Ok(Some(kinds[j].value))
  }

  // ---------------------------------------------------------------------------
  // WriteValue

  /** The lines to write back, and whether a value was replaced. */
  datatype Written = Written(lines: seq<string>, updated: bool)

  /** `INIFile.WriteValue(filePath, section, key, value)` as written: the first
      key line that `ReadValue` would read has every occurrence of its prior value
      replaced by the new one (a `null` one removes them); an empty prior value
      makes `String.Replace` throw. */
  function WriteValue(lines: seq<string>, section: Option<string>, key: Option<string>, value: Option<string>): (r: Result<Written>)
    ensures section.None? || key.None? ==> r == Err(ArgumentNull)
    ensures r.Err? ==> r.error == ArgumentNull || r.error == FileHandling
    ensures r.Ok? ==> |r.value.lines| == |lines|
    ensures r.Ok? && !r.value.updated ==> r.value.lines == lines
  {
    if section.None? || key.None? then Err(ArgumentNull)
    else
      var kinds := StaticKinds(lines);
      match FirstHit(kinds, None, NormalizeSection(section.value), Trim(key.value))
      case None => Ok(Written(lines, false))
      case Some(j) =>
        var prior := kinds[j].value;
        if |prior| == 0 then Err(FileHandling)
        else Ok(Written(lines[j := Replace(lines[j], prior, value.GetOr(""))], true))
  }

  /** A key line with its value text swapped for `value`: the text up to the
      first `=` and any comment from the first `;` after it are kept. */
  function InPlace(raw: string, value: string): string {
    match SplitFirst(raw, '=')
    case Whole => raw
    case Pieces(before, after) => before + ['='] + value + after[|CutAt(after, ';')|..]
  }

  /** `WriteValue` as evidently intended: the same line is chosen, but only
      its value is replaced, whatever the prior value was. */
  function WriteValueInPlace(lines: seq<string>, section: Option<string>, key: Option<string>, value: Option<string>): (r: Result<Written>)
    ensures r.Err? <==> section.None? || key.None?
    ensures r.Err? ==> r.error == ArgumentNull
    ensures r.Ok? ==> |r.value.lines| == |lines|
    ensures r.Ok? && !r.value.updated ==> r.value.lines == lines
  {
    if section.None? || key.None? then Err(ArgumentNull)
    else
      var kinds := StaticKinds(lines);
      match FirstHit(kinds, None, NormalizeSection(section.value), Trim(key.value))
      case None => Ok(Written(lines, false))
      case Some(j) => Ok(Written(lines[j := InPlace(lines[j], value.GetOr(""))], true))
  }

  // ---------------------------------------------------------------------------
  // ReadAllSections

  /** `INIFile.ReadAllSections(filePath)`: every header's name in file order,
      repeats included. */
  method ReadAllSections(lines: seq<string>) returns (names: seq<string>)
    ensures names == HeaderNames(StaticKinds(lines))
    ensures |names| <= |lines|
  {
    names := [];
    var i := 0;
    while i < |lines|
      invariant 0 <= i <= |lines|
      invariant names == HeaderNames(StaticKinds(lines[..i]))
      invariant |names| <= i
    {
      var kind := ClassifyStatic(lines[i]);
      SectionsStep(lines, i);
      if kind.Header? {
        names := names + [kind.name];
      }
      i := i + 1;
    }
    assert lines[..|lines|] == lines;
  }

  lemma SectionsStep(lines: seq<string>, i: nat)
    requires i < |lines|
    ensures HeaderNames(StaticKinds(lines[..i + 1])) ==
      HeaderNames(StaticKinds(lines[..i])) + HeaderNames([ClassifyStatic(lines[i])])
  {
    assert lines[..i + 1] == lines[..i] + [lines[i]];
    StaticKindsAppend(lines[..i], lines[i]);
    HeaderNamesAppend(StaticKinds(lines[..i]), [ClassifyStatic(lines[i])]);
  }

  // ---------------------------------------------------------------------------
  // ReadAllKeys

  /** The keys of the key lines in `lines`, in order, repeats included. */
  function PairKeys(lines: seq<LineKind>): (r: seq<string>)
    ensures |r| <= |lines|
    decreases |lines|
  {
    if |lines| == 0 then []
    else (if lines[0].Pair? then [lines[0].key] else []) + PairKeys(lines[1..])
  }

  /** The loop of `ReadAllKeys`: keys are collected while the current section
      is the one asked for, and the next header after it ends the loop. The
      source's `desiredSectionFound` flag always equals that comparison, so it
      is not kept separately. */
  function CollectKeys(lines: seq<LineKind>, current: Option<string>, section: string): (r: seq<string>)
    ensures |r| <= |lines|
    ensures forall k :: 0 <= k < |r| ==> exists i :: 0 <= i < |lines| && DefinesKey(lines[i], r[k])
    decreases |lines|
  {
    if |lines| == 0 then []
    else
      var tail := lines[1..];
      var rest := match lines[0]
        case Header(name) => CollectKeys(tail, Some(name), section)
        case _ => CollectKeys(tail, current, section);
      assert forall k :: 0 <= k < |rest| ==> exists i :: 0 <= i < |lines| && DefinesKey(lines[i], rest[k]) by {
        forall k | 0 <= k < |rest| ensures exists i :: 0 <= i < |lines| && DefinesKey(lines[i], rest[k]) {
          var i :| 0 <= i < |tail| && DefinesKey(tail[i], rest[k]);
          assert lines[1 + i] == tail[i];
        }
      }
      match lines[0]
      case Header(name) => if current == Some(section) then [] else rest
      case Pair(key, _) =>
        assert DefinesKey(lines[0], key);
        (if current == Some(section) then [key] else []) + rest
      case _ => rest
  }

  /** `INIFile.ReadAllKeys(filePath, section)`: the keys of the first
      occurrence of the section. The section is trimmed before the `try`, so a
      `null` one throws `NullReferenceException`. */
  function ReadAllKeys(lines: seq<string>, section: Option<string>): (r: Result<seq<string>>)
    ensures r.Err? <==> section.None?
    ensures r.Err? ==> r.error == NullReference
    ensures r.Ok? ==> |r.value| <= |lines|
  {
    if section.None? then Err(NullReference)
    else Ok(CollectKeys(StaticKinds(lines), None, NormalizeSection(section.value)))
  }

  // ---------------------------------------------------------------------------
  // Facts about the classification

  lemma {:induction false} StaticKindsAt(lines: seq<string>, i: nat)
    requires i < |lines|
    ensures StaticKinds(lines)[i] == ClassifyStatic(lines[i])
    decreases i
  {
    if i > 0 {
      StaticKindsAt(lines[1..], i - 1);
    }
  }

  lemma {:induction false} StaticKindsAppend(lines: seq<string>, line: string)
    ensures StaticKinds(lines + [line]) == StaticKinds(lines) + [ClassifyStatic(line)]
    decreases |lines|
  {
    if |lines| > 0 {
      assert (lines + [line])[1..] == lines[1..] + [line];
      StaticKindsAppend(lines[1..], line);
    } else {
      assert lines + [line] == [line];
    }
  }

  lemma StaticKindsUpdate(lines: seq<string>, j: nat, line: string)
    requires j < |lines|
    ensures StaticKinds(lines[j := line]) == StaticKinds(lines)[j := ClassifyStatic(line)]
  {
    var updated := lines[j := line];
    forall i | 0 <= i < |lines|
      ensures StaticKinds(updated)[i] == StaticKinds(lines)[j := ClassifyStatic(line)][i]
    {
      StaticKindsAt(updated, i);
      StaticKindsAt(lines, i);
    }
  }

  // ---------------------------------------------------------------------------
  // The scan against its reference definition

  lemma {:induction false} OwnerShift(lines: seq<LineKind>, j: nat, start: Option<string>)
    requires j < |lines|
    ensures Owner(lines, j + 1, start) == Owner(lines[1..], j, Next(lines[0], start))
    decreases j
  {
    if j > 0 {
      OwnerShift(lines, j - 1, start);
      assert lines[1..][j - 1] == lines[j];
    }
  }

  lemma {:induction false} OwnerPrefix(a: seq<LineKind>, b: seq<LineKind>, j: nat, start: Option<string>)
    requires j <= |a| && j <= |b| && a[..j] == b[..j]
    ensures Owner(a, j, start) == Owner(b, j, start)
    decreases j
  {
    if j > 0 {
      assert a[j - 1] == a[..j][j - 1] == b[..j][j - 1] == b[j - 1];
      assert a[..j - 1] == a[..j][..j - 1];
      assert b[..j - 1] == b[..j][..j - 1];
      OwnerPrefix(a, b, j - 1, start);
    }
  }

  /** Dropping the first line moves every later hit one place up. */
  lemma HitShift(lines: seq<LineKind>, start: Option<string>, section: string, key: string)
    requires |lines| > 0
    ensures forall i :: 0 <= i < |lines| - 1 ==>
      (Hit(lines, start, i + 1, section, key) <==> Hit(lines[1..], Next(lines[0], start), i, section, key))
  {
    forall i | 0 <= i < |lines| - 1
      ensures Hit(lines, start, i + 1, section, key) <==> Hit(lines[1..], Next(lines[0], start), i, section, key)
    {
      OwnerShift(lines, i, start);
      assert lines[1..][i] == lines[i + 1];
    }
  }

  /** The scan stops at the first hit, and finds none only when there is none. */
  lemma {:induction false} FirstHitSpec(lines: seq<LineKind>, current: Option<string>, section: string, key: string)
    ensures FirstHit(lines, current, section, key).Some? ==>
      Hit(lines, current, FirstHit(lines, current, section, key).value, section, key)
    ensures FirstHit(lines, current, section, key).Some? ==>
      forall i :: 0 <= i < FirstHit(lines, current, section, key).value ==> !Hit(lines, current, i, section, key)
    ensures FirstHit(lines, current, section, key).None? ==> forall i :: !Hit(lines, current, i, section, key)
    decreases |lines|
  {
    if |lines| > 0 && !(lines[0].Pair? && current == Some(section) && lines[0].key == key) {
      var next := Next(lines[0], current);
      FirstHitSpec(lines[1..], next, section, key);
      HitShift(lines, current, section, key);
      assert !Hit(lines, current, 0, section, key);
      forall i: nat | Hit(lines, current, i, section, key)
        ensures i > 0 && Hit(lines[1..], next, i - 1, section, key)
      {
      }
    }
  }

  /** The scan stops exactly at the first hit. */
  lemma FirstHitIs(lines: seq<LineKind>, current: Option<string>, section: string, key: string, j: nat)
    requires Hit(lines, current, j, section, key)
    requires forall i :: 0 <= i < j ==> !Hit(lines, current, i, section, key)
    ensures FirstHit(lines, current, section, key) == Some(j)
  {
    FirstHitSpec(lines, current, section, key);
  }

  lemma FirstHitNone(lines: seq<LineKind>, current: Option<string>, section: string, key: string)
    requires forall i :: !Hit(lines, current, i, section, key)
    ensures FirstHit(lines, current, section, key) == None
  {
    FirstHitSpec(lines, current, section, key);
  }

  /** Changing a line leaves every hit before it as it was. */
  lemma HitsBefore(a: seq<LineKind>, b: seq<LineKind>, start: Option<string>, section: string, key: string, j: nat)
    requires j <= |a| && j <= |b| && a[..j] == b[..j]
    ensures forall i :: 0 <= i < j ==> (Hit(a, start, i, section, key) <==> Hit(b, start, i, section, key))
  {
    forall i | 0 <= i < j
      ensures Hit(a, start, i, section, key) <==> Hit(b, start, i, section, key)
    {
      assert a[..i] == a[..j][..i] && b[..i] == b[..j][..i];
      assert a[i] == a[..j][i] && b[i] == b[..j][i];
      OwnerPrefix(a, b, i, start);
    }
  }

  // ---------------------------------------------------------------------------
  // Properties of the operations

  /** `ReadValue` returns the value of the first key line for the key inside
      the section, wherever the section recurs. */
  lemma ReadValueFindsFirst(lines: seq<string>, section: string, key: string, default: Option<string>, j: nat)
    requires Hit(StaticKinds(lines), None, j, NormalizeSection(section), Trim(key))
    requires forall i :: 0 <= i < j ==> !Hit(StaticKinds(lines), None, i, NormalizeSection(section), Trim(key))
    ensures ReadValue(lines, Some(section), Some(key), default) == Ok(Some(StaticKinds(lines)[j].value))
  {
    FirstHitIs(StaticKinds(lines), None, NormalizeSection(section), Trim(key), j);
  }

  /** Without a key line for the key in the section, `ReadValue` returns the default. */
  lemma ReadValueMissing(lines: seq<string>, section: string, key: string, default: Option<string>)
    requires forall i :: !Hit(StaticKinds(lines), None, i, NormalizeSection(section), Trim(key))
    ensures ReadValue(lines, Some(section), Some(key), default) == Ok(default)
  {
    FirstHitNone(StaticKinds(lines), None, NormalizeSection(section), Trim(key));
  }

  /** `WriteValue` changes a line exactly when `ReadValue` finds a non-empty
      value, fails exactly when it finds an empty one, and otherwise leaves
      the file as it was. */
  lemma WriteFollowsRead(lines: seq<string>, section: string, key: string, value: Option<string>)
    ensures WriteValue(lines, Some(section), Some(key), value) == Err(FileHandling) <==>
      ReadValue(lines, Some(section), Some(key), None) == Ok(Some(""))
    ensures WriteValue(lines, Some(section), Some(key), value).Ok? ==>
      (WriteValue(lines, Some(section), Some(key), value).value.updated <==>
       ReadValue(lines, Some(section), Some(key), None).value.Some?)
    ensures ReadValue(lines, Some(section), Some(key), None) == Ok(None) ==>
      WriteValue(lines, Some(section), Some(key), value) == Ok(Written(lines, false))
  {
  }

  /** The line `WriteValue` rewrites is the one `ReadValue` reads, and no
      other line changes. */
  lemma WriteValueAt(lines: seq<string>, section: string, key: string, value: Option<string>, j: nat)
    requires Hit(StaticKinds(lines), None, j, NormalizeSection(section), Trim(key))
    requires forall i :: 0 <= i < j ==> !Hit(StaticKinds(lines), None, i, NormalizeSection(section), Trim(key))
    requires |StaticKinds(lines)[j].value| > 0
    ensures WriteValue(lines, Some(section), Some(key), value) ==
      Ok(Written(lines[j := Replace(lines[j], StaticKinds(lines)[j].value, value.GetOr(""))], true))
  {
    FirstHitIs(StaticKinds(lines), None, NormalizeSection(section), Trim(key), j);
    WriteAtHit(lines, section, key, value, j);
  }

  lemma WriteAtHit(lines: seq<string>, section: string, key: string, value: Option<string>, j: nat)
    requires FirstHit(StaticKinds(lines), None, NormalizeSection(section), Trim(key)) == Some(j)
    requires j < |lines| && |StaticKinds(lines)[j].value| > 0
    ensures WriteValue(lines, Some(section), Some(key), value) ==
      Ok(Written(lines[j := Replace(lines[j], StaticKinds(lines)[j].value, value.GetOr(""))], true))
  {
  }

  /** A key line reads back with its new value after `InPlace`. */
  lemma InPlaceReadsBack(raw: string, key: string, prior: string, value: string)
    requires ClassifyStatic(raw) == Pair(key, prior)
    requires PlainValue(value)
    ensures ClassifyStatic(InPlace(raw, value)) == Pair(key, value)
  {
    var t := TrimStart(raw);
    assert |t| > 0 && t[0] != ';' && t[0] != '[' && ParseKeyValue(t) == Pair(key, prior);
    assert '=' in raw by {
      assert '=' in t;
      StartTrimmedChars(raw);
    }
    var before, after := SplitFirst(raw, '=').before, SplitFirst(raw, '=').after;
    var tail := after[|CutAt(after, ';')|..];
    var line := InPlace(raw, value);
    assert raw == before + ['='] + after && '=' !in before;
    InPlaceShape(raw, value);
    RewrittenKeyLine(before, after, value + tail);
    var tb := TrimStart(before);
    assert key == Trim(tb);
    assert CutAt(value + tail, ';') == value by {
      ValueBeforeComment(value, after);
    }
    assert TrimStart(line)[0] == t[0];
    assert ClassifyStatic(line) == ParseKeyValue(TrimStart(line));
  }

  lemma InPlaceShape(raw: string, value: string)
    requires '=' in raw
    ensures var split := SplitFirst(raw, '=');
      InPlace(raw, value) == split.before + ['='] + (value + split.after[|CutAt(split.after, ';')|..])
  {
  }

  /** The characters a start trim keeps are characters of the text. */
  lemma StartTrimmedChars(s: string)
    ensures forall c :: c in TrimStart(s) ==> c in s
  {
    var t := TrimStart(s);
    assert t == s[|s| - |t|..];
    assert forall k :: 0 <= k < |t| ==> t[k] == s[|s| - |t| + k];
  }

  lemma TrimStartBefore(before: string, c: char, rest: string)
    requires !IsWhiteSpace(c)
    ensures TrimStart(before + [c] + rest) == TrimStart(before) + [c] + rest
  {
    var b := [c] + rest;
    calc {
      TrimStart(before + [c] + rest);
    == { assert before + [c] + rest == before + b; }
      TrimLeft(before + b, Spaces);
    == { TrimLeftConcat(before, b, Spaces); }
      TrimLeft(before, Spaces) + b;
    == { assert TrimLeft(before, Spaces) + b == TrimLeft(before, Spaces) + [c] + rest; }
      TrimStart(before) + [c] + rest;
    }
  }

  /** A key line and its rewrite share the text before the `=`, which yields
      the key. */
  lemma RewrittenKeyLine(before: string, after: string, rest: string)
    requires '=' !in before
    ensures TrimStart(before + ['='] + after) == TrimStart(before) + ['='] + after
    ensures TrimStart(before + ['='] + rest) == TrimStart(before) + ['='] + rest
    ensures ParseKeyValue(TrimStart(before) + ['='] + after) == Pair(Trim(TrimStart(before)), Trim(CutAt(after, ';')))
    ensures ParseKeyValue(TrimStart(before) + ['='] + rest) == Pair(Trim(TrimStart(before)), Trim(CutAt(rest, ';')))
  {
    TrimStartBefore(before, '=', after);
    TrimStartBefore(before, '=', rest);
    StartTrimmedChars(before);
    ParseAtSeparator(TrimStart(before), after);
    ParseAtSeparator(TrimStart(before), rest);
  }

  /** Text after a value-free cut of `after` is empty or starts a comment. */
  lemma ValueBeforeComment(value: string, after: string)
    requires ';' !in value
    ensures CutAt(value + after[|CutAt(after, ';')|..], ';') == value
  {
    var tail := after[|CutAt(after, ';')|..];
    if |tail| == 0 {
      assert value + tail == value;
      CutAtAbsent(value, ';');
    } else {
      assert tail[0] == ';';
      assert value + tail == value + [';'] + tail[1..];
      CutAtSeparator(value, ';', tail[1..]);
    }
  }

  /** Writing in place, then reading, returns the value written, whatever the
      key and the prior value were. */
  lemma InPlaceThenRead(lines: seq<string>, section: string, key: string, value: string, default: Option<string>)
    requires ReadValue(lines, Some(section), Some(key), None).value.Some?
    requires PlainValue(value)
    ensures WriteValueInPlace(lines, Some(section), Some(key), Some(value)).Ok?
    ensures WriteValueInPlace(lines, Some(section), Some(key), Some(value)).value.updated
    ensures ReadValue(WriteValueInPlace(lines, Some(section), Some(key), Some(value)).value.lines, Some(section), Some(key), default) ==
      Ok(Some(value))
  {
    var s, k := NormalizeSection(section), Trim(key);
    var kinds := StaticKinds(lines);
    FirstHitSpec(kinds, None, s, k);
    var j := FirstHit(kinds, None, s, k).value;
    var line := InPlace(lines[j], value);
    RewrittenLineReads(lines, s, k, j, line, kinds[j].value, value);
  }

  /** Replacing the first hit by a key line for the same key with `value`
      makes `value` what the section reads for the key. */
  lemma RewrittenLineReads(lines: seq<string>, s: string, k: string, j: nat, line: string, prior: string, value: string)
    requires Hit(StaticKinds(lines), None, j, s, k)
    requires forall i :: 0 <= i < j ==> !Hit(StaticKinds(lines), None, i, s, k)
    requires StaticKinds(lines)[j] == Pair(k, prior)
    requires PlainValue(value) && line == InPlace(lines[j], value)
    ensures FirstHit(StaticKinds(lines[j := line]), None, s, k) == Some(j)
    ensures StaticKinds(lines[j := line])[j] == Pair(k, value)
  {
    var kinds := StaticKinds(lines);
    StaticKindsAt(lines, j);
    InPlaceReadsBack(lines[j], k, prior, value);
    StaticKindsUpdate(lines, j, line);
    var kinds' := StaticKinds(lines[j := line]);
    assert kinds'[..j] == kinds[..j];
    HitsBefore(kinds, kinds', None, s, k, j);
    OwnerPrefix(kinds, kinds', j, None);
    FirstHitIs(kinds', None, s, k, j);
  }

  /** On a line written `key=prior`, where the prior value does not occur before
      the value itself, `WriteValue` does what the in-place write does, so
      reading back returns the value written. */
  lemma WriteThenRead(lines: seq<string>, section: string, key: string, prior: string, value: string, default: Option<string>, j: nat)
    requires Hit(StaticKinds(lines), None, j, NormalizeSection(section), Trim(key))
    requires forall i :: 0 <= i < j ==> !Hit(StaticKinds(lines), None, i, NormalizeSection(section), Trim(key))
    requires lines[j] == FormatPair(Trim(key), prior) && '=' !in Trim(key)
    requires |prior| > 0 && PlainValue(prior) && PlainValue(value)
    requires forall p :: 0 <= p <= |Trim(key)| ==> !OccursAt(lines[j], prior, p)
    ensures WriteValue(lines, Some(section), Some(key), Some(value)) == WriteValueInPlace(lines, Some(section), Some(key), Some(value))
    ensures ReadValue(WriteValue(lines, Some(section), Some(key), Some(value)).value.lines, Some(section), Some(key), default) ==
      Ok(Some(value))
  {
    var s, k := NormalizeSection(section), Trim(key);
    var kinds := StaticKinds(lines);
    FirstHitIs(kinds, None, s, k, j);
    KindAtFormatted(lines, j, k, prior);
    assert Replace(lines[j], prior, value) == InPlace(lines[j], value) by {
      ReplaceOnlyValue(k, prior, value);
    }
    RewrittenLineReads(lines, s, k, j, InPlace(lines[j], value), prior, value);
  }

  /** A line `key=prior` whose key carries no `=` is the key line for `key`
      with value `prior`, whenever it is a key line for `key` at all. */
  lemma KindAtFormatted(lines: seq<string>, j: nat, key: string, prior: string)
    requires j < |lines| && lines[j] == FormatPair(key, prior)
    requires StaticKinds(lines)[j].Pair? && StaticKinds(lines)[j].key == key
    requires '=' !in key && PlainValue(prior)
    ensures StaticKinds(lines)[j] == Pair(key, prior)
  {
    StaticKindsAt(lines, j);
    FormatPairOf(key, prior);
  }

  lemma FormatPairOf(key: string, prior: string)
    requires '=' !in key && PlainValue(prior)
    ensures ClassifyStatic(FormatPair(key, prior)).Pair? ==> ClassifyStatic(FormatPair(key, prior)).value == prior
  {
    var raw := FormatPair(key, prior);
    var t := TrimStart(raw);
    PairLineParse(key, prior);
    assert ParseKeyValue(t).value == prior;
    if |t| > 0 && t[0] != ';' && t[0] != '[' {
      assert ClassifyStatic(raw) == ParseKeyValue(t);
    }
  }

  lemma PairLineParse(key: string, prior: string)
    requires '=' !in key && PlainValue(prior)
    ensures TrimStart(FormatPair(key, prior)) == TrimStart(key) + ['='] + prior
    ensures ParseKeyValue(TrimStart(key) + ['='] + prior) == Pair(Trim(TrimStart(key)), prior)
  {
    TrimStartBefore(key, '=', prior);
    StartTrimmedChars(key);
    ParseAtSeparator(TrimStart(key), prior);
    CutAtAbsent(prior, ';');
  }

  /** Replacing `prior` in `key=prior`, when it does not occur earlier, touches
      only the value. */
  lemma ReplaceOnlyValue(key: string, prior: string, value: string)
    requires |prior| > 0 && ';' !in prior && '=' !in key
    requires forall p :: 0 <= p <= |key| ==> !OccursAt(FormatPair(key, prior), prior, p)
    ensures Replace(FormatPair(key, prior), prior, value) == FormatPair(key, value)
    ensures InPlace(FormatPair(key, prior), value) == FormatPair(key, value)
  {
    var a := key + ['='];
    assert FormatPair(key, prior) == a + prior;
    ReplaceSkipsPrefix(a, prior, prior, value);
    ReplaceWhole(prior, value);
    SplitFirstAt(key, '=', prior);
    CutAtAbsent(prior, ';');
    assert prior[|prior|..] == [];
  }

  /** `ReadAllKeys` lists the keys of the first section with the name, up to
      the next header, in file order and with repeats. */
  lemma ReadAllKeysFirstSection(lines: seq<string>, section: string, j: nat)
    requires j < |lines| && StaticKinds(lines)[j] == Header(NormalizeSection(section))
    requires forall i :: 0 <= i < j ==> StaticKinds(lines)[i] != Header(NormalizeSection(section))
    ensures ReadAllKeys(lines, Some(section)) == Ok(PairKeys(SectionLines(StaticKinds(lines), j)))
  {
    CollectUpTo(StaticKinds(lines), None, NormalizeSection(section), j);
  }

  /** Without a header with the name, `ReadAllKeys` lists nothing. */
  lemma ReadAllKeysNoSection(lines: seq<string>, section: string)
    requires forall i :: 0 <= i < |lines| ==> StaticKinds(lines)[i] != Header(NormalizeSection(section))
    ensures ReadAllKeys(lines, Some(section)) == Ok([])
  {
    CollectOutside(StaticKinds(lines), None, NormalizeSection(section));
  }

  lemma {:induction false} CollectUpTo(lines: seq<LineKind>, current: Option<string>, section: string, j: nat)
    requires current != Some(section)
    requires j < |lines| && lines[j] == Header(section)
    requires forall i :: 0 <= i < j ==> lines[i] != Header(section)
    ensures CollectKeys(lines, current, section) == PairKeys(SectionLines(lines, j))
    decreases j
  {
    if j == 0 {
      CollectBody(lines[1..], section);
    } else {
      assert lines[0] != Header(section);
      assert forall i :: 0 <= i < j - 1 ==> lines[1..][i] != Header(section) by {
        forall i | 0 <= i < j - 1 ensures lines[1..][i] != Header(section) {
          assert lines[1..][i] == lines[i + 1];
        }
      }
      assert SectionLines(lines[1..], j - 1) == SectionLines(lines, j) by {
        assert lines[1..][j..] == lines[j + 1..];
      }
      CollectUpTo(lines[1..], Next(lines[0], current), section, j - 1);
    }
  }

  lemma {:induction false} CollectOutside(lines: seq<LineKind>, current: Option<string>, section: string)
    requires current != Some(section)
    requires forall i :: 0 <= i < |lines| ==> lines[i] != Header(section)
    ensures CollectKeys(lines, current, section) == []
    decreases |lines|
  {
    if |lines| > 0 {
      assert lines[0] != Header(section);
      assert forall i :: 0 <= i < |lines| - 1 ==> lines[1..][i] != Header(section) by {
        forall i | 0 <= i < |lines| - 1 ensures lines[1..][i] != Header(section) {
          assert lines[1..][i] == lines[i + 1];
        }
      }
      CollectOutside(lines[1..], Next(lines[0], current), section);
    }
  }

  /** Inside the section, every key line's key is collected until the next header. */
  lemma {:induction false} CollectBody(body: seq<LineKind>, section: string)
    ensures CollectKeys(body, Some(section), section) == PairKeys(body[..LeadLength(body)])
    decreases |body|
  {
    if |body| > 0 && !body[0].Header? {
      CollectBody(body[1..], section);
      assert body[..LeadLength(body)][1..] == body[1..][..LeadLength(body[1..])];
    } else if |body| > 0 {
      assert body[..LeadLength(body)] == [];
    }
  }
}

=== FILE: lines.dfy ===
/** Classification of one line of an INI file.

    The static file operations and the document build classify a line the same
    way except in two places: the static operations only trim its start, and
    they extract a header name by cutting at the first `]`, whereas the build
    trims both ends and strips every trailing `]`. */
module Lines {
  import opened Text

  datatype LineKind =
    | Blank
    | Comment
    | Header(name: string)
    | Pair(key: string, value: string)
    | Other                              // no `=`: neither header nor key line

  /** A line split on its first `=`: the key is the trimmed text before it,
      the value the text after it cut at its first `;` and trimmed. */
  function ParseKeyValue(line: string): (r: LineKind)
    ensures r.Pair? || r.Other?
    ensures r.Other? <==> '=' !in line
    ensures r.Pair? ==> Trimmed(r.key) && Trimmed(r.value) && ';' !in r.value
    ensures r.Pair? ==> '=' !in r.key
  {
    match SplitFirst(line, '=')
    case Whole => Other
    case Pieces(key, rest) =>
      var value := CutAt(rest, ';');
      TrimKeeps(value, ';');
      TrimKeeps(key, '=');
      Pair(Trim(key), Trim(value))
  }

  /** `r` is `s` with some leading `[` and some trailing `]` taken off. */
  predicate BracketsAround(s: string, r: string) {
    exists i, j :: 0 <= i <= j <= |s| && r == s[i..j] &&
      (forall k :: 0 <= k < i ==> s[k] == '[') && (forall k :: j <= k < |s| ==> s[k] == ']')
  }

  /** `s.TrimStart('[').TrimEnd(']')`: every leading `[` and trailing `]`
      removed, and nothing else. */
  function StripBrackets(s: string): (r: string)
    ensures BracketsAround(s, r)
    ensures |r| == 0 || (r[0] != '[' && r[|r| - 1] != ']')
  {
    var t := TrimStartChar(s, '[');
    var r := TrimEndChar(t, ']');
    assert |r| > 0 ==> r[0] == t[0];
    StrippedBetween(s, t, r);
    r
  }

  /** The witnesses of `BracketsAround` for the two trims. */
  lemma StrippedBetween(s: string, t: string, r: string)
    requires |t| <= |s| && t == s[|s| - |t|..] && forall k :: 0 <= k < |s| - |t| ==> s[k] == '['
    requires |r| <= |t| && r == t[..|r|] && forall k :: |r| <= k < |t| ==> t[k] == ']'
    ensures BracketsAround(s, r)
  {
    var i := |s| - |t|;
    assert r == s[i..i + |r|];
    assert forall k :: i + |r| <= k < |s| ==> s[k] == t[k - i];
  }

  /** `section.Trim().TrimStart('[').TrimEnd(']')`: how every operation
      normalises a section name supplied by its caller. A trimmed name
      without brackets denotes itself. */
  function NormalizeSection(section: string): (r: string)
    ensures BracketsAround(Trim(section), r)
    ensures |r| == 0 || (r[0] != '[' && r[|r| - 1] != ']')
    ensures PlainName(section) && Trimmed(section) ==> r == section
  {
    PlainNameStripped(section);
    StripBrackets(Trim(section))
  }

  /** A name without brackets at either end has none to strip. */
  lemma PlainNameStripped(name: string)
    ensures PlainName(name) ==> StripBrackets(name) == name
  {
    if PlainName(name) {
      assert TrimStartChar(name, '[') == name;
      assert |name| > 0 ==> name[|name| - 1] in name;
    }
  }

  /** The static operations' header name: leading `[` removed, then the text
      cut before the first `]`; without a `]`, `Remove(-1)` throws, the throw is
      swallowed and the remainder is kept. */
  function StaticHeaderName(line: string): (r: string)
    ensures ']' !in r
    ensures |r| == 0 || r[0] != '['
    ensures |r| <= |TrimStartChar(line, '[')| && r == TrimStartChar(line, '[')[..|r|]
    ensures |r| < |TrimStartChar(line, '[')| ==> TrimStartChar(line, '[')[|r|] == ']'
  {
    var t := TrimStartChar(line, '[');
    var i := IndexOf(t, ']');
    if i < 0 then t
    else
      assert |t[..i]| > 0 ==> t[..i][0] == t[0];
      t[..i]
  }

  /** A line as the static operations see it (only its start is trimmed):
      after the leading white space, `;` starts a comment and `[` a header;
      any other line is a candidate key line. */
  function ClassifyStatic(raw: string): (r: LineKind)
    ensures r.Blank? <==> AllWhite(raw)
    ensures var t := TrimStart(raw); |t| > 0 && t[0] == ';' ==> r == Comment
    ensures var t := TrimStart(raw); |t| > 0 && t[0] == '[' ==> r == Header(StaticHeaderName(t))
    ensures var t := TrimStart(raw); |t| > 0 && t[0] != ';' && t[0] != '[' ==> r == ParseKeyValue(t)
    ensures r.Header? ==> ']' !in r.name && (|r.name| == 0 || r.name[0] != '[')
    ensures r.Pair? ==> '=' in raw && '=' !in r.key && Trimmed(r.key) && Trimmed(r.value) && ';' !in r.value
    ensures r.Other? ==> '=' !in raw
  {
    TrimmedAway(raw);
    TrimKeeps(raw, '=');
    var line := TrimStart(raw);
    if |line| == 0 then Blank
    else if line[0] == ';' then Comment
    else if line[0] == '[' then Header(StaticHeaderName(line))
    else ParseKeyValue(line)
  }

  /** A line as the document build sees it (trimmed at both ends): `;`
      starts a comment and `[` a header; any other line is a candidate key
      line. */
  function ClassifyBuild(raw: string): (r: LineKind)
    ensures r.Blank? <==> AllWhite(raw)
    ensures var t := Trim(raw); |t| > 0 && t[0] == ';' ==> r == Comment
    ensures var t := Trim(raw); |t| > 0 && t[0] == '[' ==> r == Header(StripBrackets(t))
    ensures var t := Trim(raw); |t| > 0 && t[0] != ';' && t[0] != '[' ==> r == ParseKeyValue(t)
    ensures r.Header? ==> |r.name| == 0 || (r.name[0] != '[' && r.name[|r.name| - 1] != ']')
    ensures r.Pair? ==> '=' in raw && '=' !in r.key && Trimmed(r.key) && Trimmed(r.value) && ';' !in r.value
    ensures r.Other? ==> '=' !in raw
  {
    TrimmedAway(raw);
    TrimKeeps(raw, '=');
    var line := Trim(raw);
    if |line| == 0 then Blank
    else if line[0] == ';' then Comment
    else if line[0] == '[' then Header(StripBrackets(line))
    else ParseKeyValue(line)
  }

  /** The header line a writer would produce for section `name`. */
  function FormatHeader(name: string): string {
    ['['] + name + [']']
  }

  /** The key line a writer would produce for `key` and `value`. */
  function FormatPair(key: string, value: string): string {
    key + ['='] + value
  }

  /** A section name that `[name]` carries unchanged. */
  predicate PlainName(name: string) {
    ']' !in name && (|name| == 0 || name[0] != '[')
  }

  /** A key that `key=value` carries unchanged and the build keeps. */
  predicate PlainKey(key: string) {
    |key| > 0 && Trimmed(key) && '=' !in key && key[0] != ';' && key[0] != '['
  }

  /** A value that `key=value` carries unchanged. */
  predicate PlainValue(value: string) {
    Trimmed(value) && ';' !in value
  }

  // ---------------------------------------------------------------------------
  // Properties

  /** Parsing inverts formatting, whatever white space surrounds the `=` and
      ends the value and whatever comment follows: the key is cut at the first `=` and the
      value at the first `;`. */
  lemma ParsePaddedPair(key: string, p2: string, p3: string, value: string, p4: string, comment: string)
    requires AllWhite(p2) && AllWhite(p3) && AllWhite(p4)
    requires Trimmed(key) && '=' !in key
    requires Trimmed(value) && ';' !in value
    requires |comment| == 0 || comment[0] == ';'
    ensures ParseKeyValue(key + p2 + "=" + p3 + value + p4 + comment) == Pair(key, value)
  {
    var before := key + p2;
    var after := p3 + value + p4 + comment;
    NoSeparatorInPadding([], key, p2, '=');
    assert [] + key + p2 == before;
    assert key + p2 + "=" + p3 + value + p4 + comment == before + ['='] + after;
    ParseAtSeparator(before, after);
    TrimPadded([], key, p2);
    PaddedValue(p3, value, p4, comment);
  }

  lemma NoSeparatorInPadding(p1: string, s: string, p2: string, c: char)
    requires AllWhite(p1) && AllWhite(p2) && !IsWhiteSpace(c) && c !in s
    ensures c !in p1 + s + p2
  {
    assert forall k :: 0 <= k < |p1| ==> p1[k] != c;
    assert forall k :: 0 <= k < |p2| ==> p2[k] != c;
  }

  lemma ParseAtSeparator(before: string, after: string)
    requires '=' !in before
    ensures ParseKeyValue(before + ['='] + after) == Pair(Trim(before), Trim(CutAt(after, ';')))
  {
    SplitFirstAt(before, '=', after);
  }

  lemma PaddedValue(p3: string, value: string, p4: string, comment: string)
    requires AllWhite(p3) && AllWhite(p4) && Trimmed(value) && ';' !in value
    requires |comment| == 0 || comment[0] == ';'
    ensures Trim(CutAt(p3 + value + p4 + comment, ';')) == value
  {
    var body := p3 + value + p4;
    NoSeparatorInPadding(p3, value, p4, ';');
    if |comment| == 0 {
      assert body + comment == body;
      CutAtAbsent(body, ';');
    } else {
      assert body + comment == body + [';'] + comment[1..];
      CutAtSeparator(body, ';', comment[1..]);
    }
    TrimPadded(p3, value, p4);
  }

  /** A line that starts with neither white space, `;` nor `[` is parsed
      as a key line, by both classifiers alike. */
  lemma KeyLineShape(raw: string)
    requires Trimmed(raw) && |raw| > 0 && raw[0] != ';' && raw[0] != '['
    ensures ClassifyStatic(raw) == ParseKeyValue(raw)
    ensures ClassifyBuild(raw) == ParseKeyValue(raw)
  {
    assert TrimStart(raw) == raw;
  }

  /** A line that starts with `[` is a header for both classifiers. */
  lemma HeaderLineShape(raw: string)
    requires |raw| > 0 && raw[0] == '['
    ensures ClassifyStatic(raw) == Header(StaticHeaderName(raw))
    ensures Trimmed(raw) ==> ClassifyBuild(raw) == Header(StripBrackets(raw))
  {
    assert TrimStart(raw) == raw;
  }

  /** Leading white space never changes what a line is: the first other
      character decides, `;` a comment, `[` a header, anything else a
      candidate key line. */
  lemma PaddedLine(p: string, c: char, rest: string)
    requires AllWhite(p) && !IsWhiteSpace(c)
    ensures ClassifyStatic(p + [c] + rest) ==
      if c == ';' then Comment
      else if c == '[' then Header(StaticHeaderName([c] + rest))
      else ParseKeyValue([c] + rest)
    ensures ClassifyBuild(p + [c] + rest) ==
      if c == ';' then Comment
      else if c == '[' then Header(StripBrackets(Trim([c] + rest)))
      else ParseKeyValue(Trim([c] + rest))
  {
    assert p + [c] + rest == p + ([c] + rest);
    TrimLeftPadded(p, [c] + rest, Spaces);
    TrimLeftPadded([], [c] + rest, Spaces);
    assert [] + ([c] + rest) == [c] + rest;
  }

  /** A line written as `key=value` reads back as that key and value. */
  lemma FormatPairRoundTrip(key: string, value: string)
    requires Trimmed(key) && '=' !in key && (|key| == 0 || (key[0] != ';' && key[0] != '['))
    requires Trimmed(value) && ';' !in value
    ensures ClassifyStatic(FormatPair(key, value)) == Pair(key, value)
    ensures ClassifyBuild(FormatPair(key, value)) == Pair(key, value)
  {
    var line := FormatPair(key, value);
    assert line == key + ['='] + value;
    assert line[0] == if |key| == 0 then '=' else key[0];
    assert line[|line| - 1] == if |value| == 0 then '=' else value[|value| - 1];
    KeyLineShape(line);
    ParseAtSeparator(key, value);
    CutAtAbsent(value, ';');
  }

  /** A header written as `[name]` reads back as `name` under both extractions,
      and a caller passing `[name]` as a section argument means `name`. */
  lemma FormatHeaderRoundTrip(name: string)
    requires ']' !in name && (|name| == 0 || name[0] != '[')
    ensures ClassifyStatic(FormatHeader(name)) == Header(name)
    ensures ClassifyBuild(FormatHeader(name)) == Header(name)
    ensures NormalizeSection(FormatHeader(name)) == name
  {
    var line := FormatHeader(name);
    assert line[0] == '[' && line[|line| - 1] == ']';
    assert Trimmed(line);
    HeaderLineShape(line);
    FormattedHeaderNames(name);
  }

  lemma FormattedHeaderNames(name: string)
    requires ']' !in name && (|name| == 0 || name[0] != '[')
    ensures StaticHeaderName(FormatHeader(name)) == name
    ensures StripBrackets(FormatHeader(name)) == name
  {
    OpeningBracketStripped(name);
    ClosingBracketStripped(name);
    IndexOfAfter(name, ']', []);
    assert (name + [']'] + [])[..|name|] == name;
    assert name + [']'] + [] == name + [']'];
  }

  lemma OpeningBracketStripped(name: string)
    requires |name| == 0 || name[0] != '['
    ensures TrimStartChar(FormatHeader(name), '[') == name + [']']
  {
    assert FormatHeader(name) == ['['] + (name + [']']);
    TrimLeftPadded(['['], name + [']'], Only('['));
  }

  lemma ClosingBracketStripped(name: string)
    requires ']' !in name
    ensures TrimEndChar(name + [']'], ']') == name
  {
    assert name != [] ==> name[|name| - 1] in name;
    TrimRightPadded(name, [']'], Only(']'));
  }

  /** A key line with white space around `=` and a trailing comment is read
      the same way by both classifiers. */
  lemma SpacedKeyLine(key: string, p2: string, p3: string, value: string, p4: string, comment: string)
    requires AllWhite(p2) && AllWhite(p3) && AllWhite(p4)
    requires Trimmed(key) && '=' !in key && |key| > 0 && key[0] != ';' && key[0] != '['
    requires Trimmed(value) && ';' !in value
    requires |comment| == 0 || comment[0] == ';'
    requires Trimmed(key + p2 + "=" + p3 + value + p4 + comment)
    ensures ClassifyStatic(key + p2 + "=" + p3 + value + p4 + comment) == Pair(key, value)
    ensures ClassifyBuild(key + p2 + "=" + p3 + value + p4 + comment) == Pair(key, value)
  {
    var line := key + p2 + "=" + p3 + value + p4 + comment;
    assert line[0] == key[0];
    KeyLineShape(line);
    ParsePaddedPair(key, p2, p3, value, p4, comment);
  }

  /** Both classifiers agree on which lines are blank, comments, headers or
      candidate key lines: only the header name and the trimmed end differ. */
  lemma SameShape(raw: string)
    ensures ClassifyStatic(raw).Blank? <==> ClassifyBuild(raw).Blank?
    ensures ClassifyStatic(raw).Comment? <==> ClassifyBuild(raw).Comment?
    ensures ClassifyStatic(raw).Header? <==> ClassifyBuild(raw).Header?
  {
    var t := TrimStart(raw);
    var u := Trim(raw);
    assert u == TrimRight(t, Spaces);
    if |t| > 0 {
      assert !IsWhiteSpace(t[0]);
      assert |u| > 0 && u[0] == t[0];
    }
  }

  /** Text after the closing bracket of a header: the static extraction stops
      at the first `]`, the build's keeps everything up to the trailing `]`s,
      here none, so `[A] ; note` names `A` for one and `A] ; note` for the other. */
  lemma TextAfterHeader(name: string, tail: string)
    requires ']' !in name && (|name| == 0 || name[0] != '[')
    requires |tail| > 0 && !IsWhiteSpace(tail[|tail| - 1]) && tail[|tail| - 1] != ']'
    ensures ClassifyStatic(FormatHeader(name) + tail) == Header(name)
    ensures ClassifyBuild(FormatHeader(name) + tail) == Header(name + [']'] + tail)
  {
    var inner := name + [']'] + tail;
    var line := ['['] + inner;
    assert FormatHeader(name) + tail == line;
    assert Trimmed(line) by {
      assert line[|line| - 1] == tail[|tail| - 1];
    }
    assert StaticHeaderName(line) == name by {
      assert inner[0] == if |name| == 0 then ']' else name[0];
      OpeningStripped(inner);
      FirstClosingBracket(name, tail);
    }
    assert StripBrackets(line) == inner by {
      assert inner[0] == if |name| == 0 then ']' else name[0];
      OpeningStripped(inner);
      NoClosingBracketAtEnd(inner);
    }
    HeaderLineShape(line);
  }

  lemma OpeningStripped(inner: string)
    requires |inner| > 0 && inner[0] != '['
    ensures TrimStartChar(['['] + inner, '[') == inner
  {
    TrimLeftPadded(['['], inner, Only('['));
  }

  lemma FirstClosingBracket(name: string, tail: string)
    requires ']' !in name
    ensures IndexOf(name + [']'] + tail, ']') == |name|
    ensures (name + [']'] + tail)[..|name|] == name
  {
    IndexOfAfter(name, ']', tail);
  }

  lemma NoClosingBracketAtEnd(s: string)
    requires |s| > 0 && s[|s| - 1] != ']'
    ensures TrimEndChar(s, ']') == s
  {
  }

  /** A header missing its closing bracket still names its section, under
      both extractions: `[A` names `A`. */
  lemma UnclosedHeader(name: string)
    requires ']' !in name && |name| > 0 && name[0] != '['
    requires !IsWhiteSpace(name[|name| - 1])
    ensures ClassifyStatic(['['] + name) == Header(name)
    ensures ClassifyBuild(['['] + name) == Header(name)
  {
    var line := ['['] + name;
    assert Trimmed(line) by {
      assert line[|line| - 1] == name[|name| - 1];
    }
    assert TrimStartChar(line, '[') == name by {
      OpeningStripped(name);
    }
    assert StripBrackets(line) == name by {
      assert name[|name| - 1] in name;
      NoClosingBracketAtEnd(name);
    }
    HeaderLineShape(line);
  }
}

=== FILE: results.dfy ===
/** Failure-carrying values shared by the INI model.

    `Option` stands for a .NET reference that may be `null`; `Result` stands for
    an operation that either returns or throws one of the exceptions the INI
    code can raise. */
module Results {

  /** A nullable string argument or return value: `None` is `null`. */
  datatype Option<+T> = None | Some(value: T) {

    /** The value, or `default` in place of `null` (the `??` of the source). */
    function GetOr(default: T): T {
      match this
      case Some(v) => v
      case None => default
    }
  }

  /** The exceptions the modelled code lets escape. */
  datatype Error =
    | NotLoaded                          // FileNotSuppliedException: instance query on an unloaded object
    | ArgumentNull                       // ArgumentNullException: static ReadValue/WriteValue with a null section or key
    | NullReference                      // NullReferenceException: Trim() on a null section, or Sections of an unloaded object
    | KeyNotFound                        // KeyNotFoundException: Dictionary indexer with an absent key
    | SectionAlreadyAdded(name: string)  // ArgumentException: Dictionary.Add with a key already present
    | FileHandling                       // FileHandlingException: anything thrown inside the static operations' try

  datatype Result<+T> = Ok(value: T) | Err(error: Error)
}

=== FILE: text.dfy ===
/** The .NET string primitives the INI code relies on, over `seq<char>`.

    Every comparison here is ordinal (character by character), as are
    `IndexOf(char)`, `Contains(char)`, `Split(char[], 2)` and
    `Replace(string, string)` in .NET. */
module Text {

  /** `Char.IsWhiteSpace`: the Unicode space, line and paragraph separators
      plus the controls U+0009..U+000D and U+0085. */
  predicate IsWhiteSpace(c: char) {
    var n := c as int;
    || (0x09 <= n <= 0x0D) || n == 0x20 || n == 0x85 || n == 0xA0 || n == 0x1680
    || (0x2000 <= n <= 0x200A) || n == 0x2028 || n == 0x2029 || n == 0x202F
    || n == 0x205F || n == 0x3000
  }

  /** Every character of `s` is white space. */
  predicate AllWhite(s: string) {
    forall k :: 0 <= k < |s| ==> IsWhiteSpace(s[k])
  }

  /** `s` neither starts nor ends with white space: a fixed point of `Trim`. */
  predicate Trimmed(s: string) {
    |s| == 0 || (!IsWhiteSpace(s[0]) && !IsWhiteSpace(s[|s| - 1]))
  }

  /** The characters a trim removes: white space (`Trim()`) or one given
      character (`TrimStart(c)`, `TrimEnd(c)`). */
  datatype Trimmable = Spaces | Only(c: char)

  predicate Drops(drop: Trimmable, x: char) {
    match drop
    case Spaces => IsWhiteSpace(x)
    case Only(c) => x == c
  }

  /** Drops the longest prefix of `s` whose characters `drop` accepts. */
  function TrimLeft(s: string, drop: Trimmable): (r: string)
    ensures |r| <= |s| && r == s[|s| - |r|..]
    ensures forall k :: 0 <= k < |s| - |r| ==> Drops(drop, s[k])
    ensures |r| > 0 ==> !Drops(drop, r[0])
    decreases |s|
  {
    if |s| > 0 && Drops(drop, s[0]) then TrimLeft(s[1..], drop) else s
  }

  /** Drops the longest suffix of `s` whose characters `drop` accepts. */
  function TrimRight(s: string, drop: Trimmable): (r: string)
    ensures |r| <= |s| && r == s[..|r|]
    ensures forall k :: |r| <= k < |s| ==> Drops(drop, s[k])
    ensures |r| > 0 ==> !Drops(drop, r[|r| - 1])
    decreases |s|
  {
    if |s| > 0 && Drops(drop, s[|s| - 1]) then TrimRight(s[..|s| - 1], drop) else s
  }

  function TrimStart(s: string): string {
    TrimLeft(s, Spaces)
  }

  function TrimStartChar(s: string, c: char): string {
    TrimLeft(s, Only(c))
  }

  function TrimEndChar(s: string, c: char): string {
    TrimRight(s, Only(c))
  }

  /** `String.Trim()`: white space removed from both ends. */
  function Trim(s: string): (r: string)
    ensures Trimmed(r)
    ensures |r| <= |s|
    ensures Trimmed(s) ==> r == s
  {
    TrimRight(TrimStart(s), Spaces)
  }

  /** `String.IndexOf(char)`: the first position of `c`, or -1. */
  function IndexOf(s: string, c: char): (r: int)
    ensures -1 <= r < |s|
    ensures r == -1 <==> c !in s
    ensures 0 <= r ==> s[r] == c && c !in s[..r]
  {
    if |s| == 0 then -1
    else if s[0] == c then 0
    else
      var i := IndexOf(s[1..], c);
      if i < 0 then -1
      else
        assert s[..i + 1] == [s[0]] + s[1..][..i];
        i + 1
  }

  /** `s.Split(new char[] { c }, 2)`: the text before the first `c` and the
      text after it, or `None` when the split yields a single piece. */
  function SplitFirst(s: string, c: char): (r: Split)
    ensures r.Whole? <==> c !in s
    ensures r.Pieces? ==> s == r.before + [c] + r.after && c !in r.before
  {
    var i := IndexOf(s, c);
    if i < 0 then Whole else Pieces(s[..i], s[i + 1..])
  }

  datatype Split = Whole | Pieces(before: string, after: string)

  /** `if (s.Contains(c)) s = s.Remove(s.IndexOf(c))`: `s` cut at its first `c`. */
  function CutAt(s: string, c: char): (r: string)
    ensures |r| <= |s| && r == s[..|r|]
    ensures c !in r
    ensures |r| < |s| ==> s[|r|] == c
  {
    if c in s then s[..IndexOf(s, c)] else s
  }

  /** `pattern` occurs in `s` starting at position `k`. */
  predicate OccursAt(s: string, pattern: string, k: int) {
    0 <= k && k + |pattern| <= |s| && s[k..k + |pattern|] == pattern
  }

  /** `String.Replace(pattern, replacement)` for a non-empty `pattern`: every
      occurrence, found left to right without overlap, replaced by `replacement`. */
  function Replace(s: string, pattern: string, replacement: string): (r: string)
    requires |pattern| > 0
    ensures (forall k :: !OccursAt(s, pattern, k)) ==> r == s
    decreases |s|
  {
    if |s| < |pattern| then s
    else if s[..|pattern|] == pattern then
      assert OccursAt(s, pattern, 0);
      replacement + Replace(s[|pattern|..], pattern, replacement)
    else
      assert forall k :: OccursAt(s[1..], pattern, k) ==> OccursAt(s, pattern, k + 1) by {
        forall k | OccursAt(s[1..], pattern, k) ensures OccursAt(s, pattern, k + 1) {
          assert s[1..][k..k + |pattern|] == s[k + 1..k + 1 + |pattern|];
        }
      }
      [s[0]] + Replace(s[1..], pattern, replacement)
  }

  // Facts about the primitives, used by the round-trip lemmas of the model.

  /** Trimming stops exactly at the first character `drop` rejects. */
  lemma {:induction false} TrimLeftPadded(p: string, s: string, drop: Trimmable)
    requires forall k :: 0 <= k < |p| ==> Drops(drop, p[k])
    requires |s| == 0 || !Drops(drop, s[0])
    ensures TrimLeft(p + s, drop) == s
    decreases |p|
  {
    if |p| > 0 {
      assert (p + s)[0] == p[0];
      assert (p + s)[1..] == p[1..] + s;
      TrimLeftPadded(p[1..], s, drop);
    } else {
      assert p + s == s;
    }
  }

  /** Trimming the start of a text that ends with a kept character trims
      only its first part. */
  lemma {:induction false} TrimLeftConcat(a: string, b: string, drop: Trimmable)
    requires |b| > 0 && !Drops(drop, b[0])
    ensures TrimLeft(a + b, drop) == TrimLeft(a, drop) + b
    decreases |a|
  {
    if |a| == 0 {
      assert a + b == b;
    } else {
      assert (a + b)[0] == a[0];
      if Drops(drop, a[0]) {
        assert (a + b)[1..] == a[1..] + b;
        TrimLeftConcat(a[1..], b, drop);
      }
    }
  }

  lemma {:induction false} TrimRightPadded(s: string, p: string, drop: Trimmable)
    requires forall k :: 0 <= k < |p| ==> Drops(drop, p[k])
    requires |s| == 0 || !Drops(drop, s[|s| - 1])
    ensures TrimRight(s + p, drop) == s
    decreases |p|
  {
    if |p| > 0 {
      var q := p[..|p| - 1];
      assert (s + p)[|s + p| - 1] == p[|p| - 1];
      assert (s + p)[..|s + p| - 1] == s + q;
      TrimRightPadded(s, q, drop);
    } else {
      assert s + p == s;
    }
  }

  /** White space around an already trimmed text is exactly what `Trim` removes. */
  lemma TrimPadded(p1: string, s: string, p2: string)
    requires AllWhite(p1) && AllWhite(p2) && Trimmed(s)
    ensures Trim(p1 + s + p2) == s
  {
    if |s| == 0 {
      assert p1 + s + p2 == (p1 + p2) + s;
      TrimLeftPadded(p1 + p2, s, Spaces);
    } else {
      assert p1 + s + p2 == p1 + (s + p2);
      TrimLeftPadded(p1, s + p2, Spaces);
      TrimRightPadded(s, p2, Spaces);
    }
  }

  lemma TrimIdempotent(s: string)
    ensures Trim(Trim(s)) == Trim(s)
  {
  }

  /** A line trims to nothing exactly when it is all white space. */
  lemma TrimmedAway(s: string)
    ensures |TrimStart(s)| == 0 <==> AllWhite(s)
    ensures |Trim(s)| == 0 <==> AllWhite(s)
  {
    var t := TrimStart(s);
    if |t| > 0 {
      assert t[0] == s[|s| - |t|];
    }
  }

  /** Trimming keeps only characters of the input. */
  lemma TrimKeeps(s: string, c: char)
    ensures c in TrimStart(s) ==> c in s
    ensures c in Trim(s) ==> c in s
  {
    var t := TrimStart(s);
    var r := Trim(s);
    assert t == s[|s| - |t|..];
    assert r == t[..|r|];
    if c in r {
      var k :| 0 <= k < |r| && r[k] == c;
      assert t[k] == c;
    }
    if c in t {
      var k :| 0 <= k < |t| && t[k] == c;
      assert s[|s| - |t| + k] == c;
    }
  }

  /** The first separator is found at the end of a separator-free prefix. */
  lemma {:induction false} IndexOfAfter(a: string, c: char, b: string)
    requires c !in a
    ensures IndexOf(a + [c] + b, c) == |a|
    decreases |a|
  {
    var s := a + [c] + b;
    if |a| > 0 {
      assert s[0] == a[0];
      assert s[1..] == a[1..] + [c] + b;
      IndexOfAfter(a[1..], c, b);
    } else {
      assert s[0] == c;
    }
  }

  /** The split point is the first separator, whatever follows it. */
  lemma SplitFirstAt(a: string, c: char, b: string)
    requires c !in a
    ensures SplitFirst(a + [c] + b, c) == Pieces(a, b)
  {
    var s := a + [c] + b;
    IndexOfAfter(a, c, b);
    assert s[..|a|] == a;
    assert s[|a| + 1..] == b;
  }

  lemma CutAtSeparator(a: string, c: char, b: string)
    requires c !in a
    ensures CutAt(a + [c] + b, c) == a
  {
    var s := a + [c] + b;
    IndexOfAfter(a, c, b);
    assert s[|a|] == c;
    assert s[..|a|] == a;
  }

  lemma CutAtAbsent(s: string, c: char)
    requires c !in s
    ensures CutAt(s, c) == s
  {
  }

  /** A prefix in which no occurrence of `pattern` starts is copied unchanged. */
  lemma {:induction false} ReplaceSkipsPrefix(a: string, b: string, pattern: string, replacement: string)
    requires |pattern| > 0
    requires forall k :: 0 <= k < |a| ==> !OccursAt(a + b, pattern, k)
    ensures Replace(a + b, pattern, replacement) == a + Replace(b, pattern, replacement)
    decreases |a|
  {
    var s := a + b;
    if |a| == 0 {
      assert s == b;
    } else if |s| < |pattern| {
      assert Replace(b, pattern, replacement) == b;
    } else {
      var a' := a[1..];
      assert s[..|pattern|] != pattern by {
        assert !OccursAt(s, pattern, 0);
      }
      assert s[1..] == a' + b;
      assert forall k :: 0 <= k < |a'| ==> !OccursAt(a' + b, pattern, k) by {
        ShiftedOccurrences(a, b, pattern);
      }
      ReplaceSkipsPrefix(a', b, pattern, replacement);
      assert a == [a[0]] + a';
    }
  }

  lemma ShiftedOccurrences(a: string, b: string, pattern: string)
    requires |a| > 0
    requires forall k :: 0 <= k < |a| ==> !OccursAt(a + b, pattern, k)
    ensures forall k :: 0 <= k < |a| - 1 ==> !OccursAt(a[1..] + b, pattern, k)
  {
    var s := a + b;
    var t := a[1..] + b;
    assert t == s[1..];
    forall k | 0 <= k < |a| - 1 ensures !OccursAt(t, pattern, k) {
      assert !OccursAt(s, pattern, k + 1);
      if k + |pattern| <= |t| {
        assert t[k..k + |pattern|] == s[k + 1..k + 1 + |pattern|];
      }
    }
  }

  /** An occurrence at the start is replaced, and the scan resumes after it,
      so occurrences never overlap. */
  lemma ReplaceAtHead(pattern: string, rest: string, replacement: string)
    requires |pattern| > 0
    ensures Replace(pattern + rest, pattern, replacement) == replacement + Replace(rest, pattern, replacement)
  {
  }

  lemma ReplaceWhole(pattern: string, replacement: string)
    requires |pattern| > 0
    ensures Replace(pattern, pattern, replacement) == replacement
  {
    assert pattern[..|pattern|] == pattern;
    assert pattern[|pattern|..] == [];
  }
}
